=== FILE: README.md ===
# shoCol colour pipeline, modelled in Dafny

shoCol is a VS Code extension that paints a small colour swatch in front of
every colour literal in an editor: hex literals (`#abc`, `#abcd`, `#aabbcc`,
`#aabbccdd`), `rgb(r, g, b)` and `rgba(r, g, b, a)`. Everything it does
lives in `src/extension.ts`. This project models the colour-literal core of
that file as pure Dafny functions:

- the colour parsers `hexToRgba` and `parseRgbRgba` and the printer
  `rgbaToCss` (module `Color`);
- the three global regular expressions, each a hand-written matcher over
  `seq<char>` (module `Patterns`);
- `findAllColors`: the three `exec` loops, the parse filter and the sort by
  offset (module `Scanner`);
- the decoration-type cache `getDecorationTypeForColor`, an insert-only map
  from the raw literal to a handle (module `DecorationCache`);
- `updateDecorations`: grouping the matches by literal, applying each group
  through the cache, skipping literals whose creation throws and clearing
  stale cached literals (module `EditorUpdate`).

Some host behaviour is replaced by parameters:

- The host's `createTextEditorDecorationType` becomes a counter that hands
  out fresh ids. A handle remembers the CSS colour it paints.
- `setDecorations` becomes the map from literal to the ranges it is given
  in one pass.
- The cache that the source keeps in a module-level `Map` is passed in and
  returned.
- JavaScript's number-to-string conversion of a non-opaque alpha is a
  parameter `fmt: real -> string`.

The source's range check in `parseRgbRgba` lets an alpha that is not a
number through (see "## Findings"). The model therefore carries a `Guard`:
`AsWritten` is the check exactly as written and `Corrected` also rejects a
NaN alpha. `findAllColors` and `updateDecorations` take the guard as a
parameter, and `UpdateDecorations(c, text, fmt, AsWritten)` is the source's
pass. Every property of the scanner and of the update pass is proved for
both readings. `Scanner.AsWrittenReportsMore` shows that the two readings
differ exactly by the NaN-alpha `rgba` literals.

Supporting modules:

- `Wrappers`: `Option` and `Result`.
- `Chars`: character classes and decimal/hex digit values.
- `ColorVectors`: the literals of `example.ts` used as concrete checks.

## Model

| member | source | states |
|---|---|---|
| Chars.HexDigitValue | src/extension.ts:29-38 | the value `parseInt(_, 16)` gives a hex digit is its position in `0123456789abcdef` once lower-cased, so `A` to `F` are worth 10 to 15 like `a` to `f`; a decimal digit keeps its decimal value |
| Color.RemoveFirst | src/extension.ts:20 | `replace` with a string pattern removes one occurrence: a text without `#` is unchanged, otherwise the result is one character shorter, and a leading `#` leaves exactly the rest |
| Color.RemoveFirstAt | src/extension.ts:20 | the character removed is the first `#`: the result is the text before the first `#` joined to the text after it |
| Color.StripHash | src/extension.ts:20 | stripping a literal's leading `#` gives back its digits |
| Color.HexToRgba | src/extension.ts:18-43 | a literal with a leading `#` decodes as the digits after it; a text with no `#` decodes as it is; any colour returned has channels in 0..255 and alpha in [0, 1] |
| Color.ShortHexIsDoubled | src/extension.ts:22-25 | a 3- or 4-digit hex literal decodes exactly like its nibble-doubled 6- or 8-digit form |
| Color.ExpandShort | src/extension.ts:23-25 | expanding a 3- or 4-digit body doubles its length and keeps it all-hex exactly when the body was |
| Color.DoubleEach | src/extension.ts:24 | `split`/`map`/`join` repeats every character in place: twice the length, and position i holds character i / 2 of the input |
| Color.DecodeFull | src/extension.ts:27-42 | a body decodes iff it has 6 or 8 characters, all hex; the colour is in gamut and opaque for 6 digits |
| Color.DecodeHexBody | src/extension.ts:22-42 | after `#` is stripped, a body decodes iff it has 3, 4, 6 or 8 characters, all hex; every other length gives null; the result is in gamut, opaque for 3 and 6 digits |
| Color.HexPair | src/extension.ts:29-38 | `parseInt` of a two-digit hex pair lies in 0..255 |
| Color.HexPairIgnoresCase | src/extension.ts:29-38 | a pair written with upper-case digits has the value of the same pair in lower case |
| Color.HexByteReadsBack | src/extension.ts:29-38 | the two-digit hex text of a byte reads back as that byte |
| Color.DecodeThreeGroups | src/extension.ts:27-32 | six hex digits give r, g, b equal to the three pair values, with alpha 1 |
| Color.DecodeFourGroups | src/extension.ts:33-39 | eight hex digits give the three pair values and alpha equal to the last pair / 255 |
| Color.HexBytesDecode | src/extension.ts:27-32 | every opaque byte triple, printed as six hex digits, decodes back to itself |
| Color.HexBytesWithAlphaDecode | src/extension.ts:33-39 | every byte quadruple, printed as eight hex digits, decodes to the triple and alpha = last byte / 255, in [0, 1] |
| Color.ParseFloatPrefix | src/extension.ts:50 | `parseFloat` of a `[\d.]+` capture is a number exactly when the text starts with a digit or with `.` and a digit; the number is never negative |
| Color.ParseRgbRgba | src/extension.ts:46-57 | null iff a channel exceeds 255, or the alpha is not a number, or the alpha exceeds 1; otherwise the channels are returned unchanged, in gamut, and the `rgb` form has alpha 1 |
| Color.RgbaKeptAsWritten | src/extension.ts:52-54 | the range check as written accepts exactly what the corrected parser accepts plus the literals whose channels are in range and whose alpha is NaN |
| Color.NaNAlphaCounterexample | src/extension.ts:50-54 | `rgba(0,0,0,.)` passes the range check as written and is rejected by the corrected parser |
| Color.RgbaToCss | src/extension.ts:60-65 | an opaque colour is printed in the `rgb(` form, any other in the `rgba(` form |
| Patterns.HexMatchAt | src/extension.ts:4 | a hex match starts at `#`, is followed only by hex digits and has length 4, 5, 7 or 9 |
| Patterns.HexAlternativeIsMaximalRun | src/extension.ts:4 | an alternative of the hex pattern followed by a word boundary must consume the whole maximal run of hex digits |
| Patterns.HexRuleIsRegex | src/extension.ts:4 | the hex rule (maximal run of 3, 4, 6 or 8 hex digits, then end of text or a non-word character) gives the same answer as the backtracking regex at every position |
| Patterns.Punct | src/extension.ts:5-6 | `\s*c` consumes only whitespace and then `c`, and no match starter |
| Patterns.Group | src/extension.ts:5-6 | `\s*(\d+)` captures a non-empty run of its class that ends where the group ends |
| Patterns.GroupSound | src/extension.ts:5-6 | between the start of `\s*(\d+)` and its capture there is only white space, and the capture is exactly the text up to where the group ends |
| Patterns.ChannelGroups | src/extension.ts:5-6 | the three channel captures are non-empty decimal runs |
| Patterns.ChannelGroupsLayout | src/extension.ts:5-6 | the text the three channel groups consume is the three captures separated by commas, with only white-space runs between the tokens |
| Patterns.Tail | src/extension.ts:5-6 | the pattern ends at `)` and has an alpha capture exactly for `rgba` |
| Patterns.TailLayout | src/extension.ts:5-6 | the text the tail consumes is `)`, or `,`, the alpha capture and `)`, with only white-space runs before each token |
| Patterns.KeywordStarters | src/extension.ts:5-6 | a case-insensitive `rgb`/`rgba` keyword begins with `r` or `R` and holds no other match starter |
| Patterns.FunctionalAt | src/extension.ts:5-6 | an `rgb`/`rgba` match starts with its keyword in any case, its captures are well formed, it has an alpha capture exactly for `rgba`, and no match starter occurs inside it |
| Patterns.FunctionalAtSound | src/extension.ts:5-6 | the converse of `FunctionalTextMatches`: the text an `rgb`/`rgba` match covers is the keyword in some letter case, `(`, the captures, the commas and `)`, with nine white-space runs between them and nothing else |
| Patterns.MatchAt | src/extension.ts:4-6 | every match of the three patterns is non-empty, lies in the text, starts at `#`, `r` or `R` and contains no other starter, so matches cannot begin inside one another |
| Patterns.RgbLayoutMatches | src/extension.ts:5 | text laid out as `rgb(R, G, B)` with decimal runs is matched whole by the `rgb` pattern with those captures |
| Patterns.OpaqueCssRoundTrip | src/extension.ts:60-65 | the `rgb(r, g, b)` text printed for an opaque in-range colour is matched whole by the `rgb` pattern, and `parseRgbRgba` reads the same colour back |
| Patterns.FunctionalTextMatches | src/extension.ts:5-6 | any text spelled as the keyword in any letter case, the parenthesised channel groups, and whitespace runs of any length wherever `\s*` stands, is matched whole by its pattern with exactly those captures |
| Patterns.FunctionalAtIn | src/extension.ts:5-6 | an `rgb`/`rgba` match reads only the text it covers: placed anywhere inside a larger text, the literal is matched at its offset with the same length and captures, whatever stands before and after it |
| Patterns.FunctionalTextMatchesIn | src/extension.ts:5-6 | a text spelled as the keyword, the parenthesised groups and any whitespace runs, placed at any offset of a larger text, is matched there by its pattern with exactly its own length and captures |
| Patterns.RgbNotAtRgba | src/extension.ts:5-6 | where the `rgba` pattern matches, the `rgb` pattern does not, so the two scans never report the same position |
| Patterns.MatchStart | src/extension.ts:4-6 | a hex match starts at `#`, and an `rgb` or `rgba` match starts at `r` or `R` |
| Patterns.OnePatternAt | src/extension.ts:4-6 | at any one position at most one of the three patterns matches |
| Patterns.Parses | src/extension.ts:115-142 | a kept `rgb`/`rgba` hit has every channel at most 255 under either check; whatever the corrected parser accepts is kept, and under the corrected check only that; a kept hex hit decodes to a colour in gamut |
| Scanner.ScanTable | src/extension.ts:112-113 | the `exec` loop reports only positions where the pattern matches, in increasing order, and successive matches do not overlap |
| Scanner.ScanTableFindsEveryMatch | src/extension.ts:112-113 | when no match begins inside another, the loop reports every matching position |
| Scanner.TableIsScannable | src/extension.ts:4-6 | for each of the three patterns, matches stay in the text and none begins inside another |
| Scanner.Scan | src/extension.ts:112-113 | the hits of a scan lie in the text and do not overlap |
| Scanner.ScanHitsMatch | src/extension.ts:113 | each reported hit is what the pattern matches at `match.index` |
| Scanner.ScanFindsEveryMatch | src/extension.ts:113 | every position where the pattern matches is reported |
| Scanner.ScanIsExact | src/extension.ts:112-113 | a position is reported iff the pattern matches there |
| Scanner.HexScanIsRegex | src/extension.ts:110-123 | the hex scan reports exactly the positions where the hex regex matches; a `#` followed by a maximal run of 5 or 7 hex digits is never reported |
| Scanner.Kept | src/extension.ts:113-122 | the filter keeps every hit whose colour parses and adds nothing beyond the hits |
| Scanner.KeptIndices | src/extension.ts:113-122 | the filter is order preserving: the kept matches are, one each and in scan order, the `ToMatch` of the hits whose colour parses, picked by strictly increasing hit indices, and a hit index is picked iff its colour parses |
| Scanner.KeptApart | src/extension.ts:112-122 | when the scan's hits do not overlap, the kept matches do not overlap either, and each starts after the previous one ends |
| Scanner.KeptSource | src/extension.ts:113-122 | every kept match comes from a hit whose colour parses |
| Scanner.KeptOfSound | src/extension.ts:110-149 | under either range check, every kept match of a scan covers its literal in the text and is a parsing match of that pattern |
| Scanner.KeptOfComplete | src/extension.ts:110-149 | every parsing match of a pattern is kept |
| Scanner.Insert | src/extension.ts:152 | inserting into a sorted list keeps it sorted and adds exactly the one element |
| Scanner.SortByStart | src/extension.ts:152 | the sort returns a permutation of its input, ordered by start offset |
| Scanner.FindAllColors | src/extension.ts:107-155 | under either range check, the result is sorted by start offset and is a permutation of the three scans' kept hits |
| Scanner.FindAllColorsSound | src/extension.ts:107-155 | under either range check, every reported match is non-empty, lies in the text, spells its literal, and is a parsing match of one of the three patterns under that check |
| Scanner.FindAllColorsComplete | src/extension.ts:107-155 | every parsing match of every pattern is reported |
| Scanner.NothingInEmptyText | src/extension.ts:107-155 | an empty text yields no matches |
| Scanner.KeptOfOnce | src/extension.ts:110-148 | the kept matches of one scan hold every match at most once |
| Scanner.AllKeptOnce | src/extension.ts:107-148 | the three scans together push every match at most once, because no two patterns match at one position |
| Scanner.ColorsSameOrApart | src/extension.ts:4-6 | two colour matches at one position have one length, and a colour match ends before any later one starts |
| Scanner.FindAllColorsApart | src/extension.ts:107-155 | the reported matches lie apart in order: each ends before the next one starts, so none is reported twice and no two overlap |
| Scanner.ColorAtReadings | src/extension.ts:50-54 | at any position, the check as written accepts a match iff the corrected check accepts it or it is an `rgba` match with in-range channels and a NaN alpha |
| Scanner.AsWrittenReportsMore | src/extension.ts:107-155 | the source reports a match iff the corrected reading reports it or it is an `rgba` literal with in-range channels and a NaN alpha |
| Scanner.NaNAlphaMatch | src/extension.ts:6 | the `rgba` pattern matches `rgba(0,0,0,.)` whole, with alpha capture `.` |
| Scanner.NaNAlphaReported | src/extension.ts:139-148 | the source reports `rgba(0,0,0,.)` as a colour and the corrected reading does not |
| DecorationCache.GetOrCreate | src/extension.ts:68-104 | a hit returns the cached handle and leaves the cache unchanged; a miss succeeds exactly on accepted literals and then adds exactly the raw literal with a fresh handle; a throw leaves the cache unchanged; the cache stays valid |
| DecorationCache.GetOrCreateIdempotent | src/extension.ts:69-71 | after a successful call, a second call with the same literal returns the same handle and changes nothing |
| DecorationCache.FreshHandle | src/extension.ts:91-102 | a newly created handle differs from every handle already cached |
| DecorationCache.OpaqueHexCssReadsBack | src/extension.ts:76-81 | the swatch colour of an opaque hex literal is `rgb(...)` text that the `rgb` pattern matches whole and `parseRgbRgba` reads back as the literal's colour |
| ColorVectors.SixDigitVector | src/extension.ts:27-32 | `#aabbcc` decodes to (170, 187, 204), opaque |
| ColorVectors.UpperCaseVector | src/extension.ts:27-32 | `#ABCDEF` decodes to (171, 205, 239), opaque |
| ColorVectors.ThreeDigitVector | example.ts:29 | `#abc` decodes like `#aabbcc` |
| ColorVectors.FourDigitVector | example.ts:33 | `#abcd` decodes like `#aabbccdd` |
| ColorVectors.AlphaHexVector | example.ts:25 | `#00a86bcc` decodes to (0, 168, 107) with alpha 204 / 255 |
| ColorVectors.BadLengthVectors | src/extension.ts:42 | five and seven hex digits give null |
| ColorVectors.RgbaVector | example.ts:48 | `rgba(149, 103, 189, 0.5)` reads back with its channels and alpha 0.5 |
| ColorVectors.OneTwoThreeVector | src/extension.ts:46-57 | the captures `1`, `2`, `3` of an `rgb` match read as the opaque colour (1, 2, 3) |
| ColorVectors.RgbInTextVector | src/extension.ts:107-155 | `rgb(1, 2, 3)` with any text before and after it is reported at the offset where it stands, with length 12 |
| ColorVectors.RgbInDeclarationVector | src/extension.ts:107-155 | in `color: rgb(1, 2, 3);` the literal is reported at offset 7 with length 12 |
| ColorVectors.OutOfRangeVectors | src/extension.ts:52-54 | `rgb(256, 0, 0)` and an alpha of 1.5 are rejected |
| EditorUpdate.AddMatch | src/extension.ts:167-180 | one grouping step opens the literal's list if it is new and appends the match's range to it; other groups are untouched |
| EditorUpdate.GroupByColor | src/extension.ts:165-180 | the group keys are exactly the matched literals, each listed once, and each group holds the ranges of that literal's matches in match order |
| EditorUpdate.GroupOrderFirstSeen | src/extension.ts:165-183 | the `Map` is iterated in the order its literals first occur among the matches |
| EditorUpdate.RangesForAscending | src/extension.ts:152-180 | matches sorted by offset give every group its ranges in ascending order of start |
| EditorUpdate.ApplyGroups | src/extension.ts:183-190 | every literal painted gets exactly its group's ranges, and the cache stays valid |
| EditorUpdate.ApplyGroupsAt | src/extension.ts:183-190 | a literal is painted iff it is a group key whose handle is cached or can be created; a throwing literal is skipped and the loop goes on; a literal is cached afterwards iff it was before or is an accepted group key; cached handles are never replaced |
| EditorUpdate.UpdateDecorations | src/extension.ts:158-199 | a pass keeps the cache valid |
| EditorUpdate.UpdatePaintsGroups | src/extension.ts:162-190 | every literal found in the pass is painted with the ranges of its matches, in ascending order, and that list is never empty, so no found literal is cleared |
| EditorUpdate.UpdateClearsStale | src/extension.ts:192-198 | every cached literal absent from the pass gets an empty range list, and no literal other than the found ones and the cached ones is touched |
| EditorUpdate.UpdateGrowsCache | src/extension.ts:183-190 | earlier cache entries are kept as they were, and the new entries are exactly the accepted literals of this pass |
| EditorUpdate.FoundLiteralsAccepted | src/extension.ts:76-87 | every literal `findAllColors` reports is accepted by the cache, so in the pipeline the `catch` branch is never taken |
| EditorUpdate.FoundLiteralShape | src/extension.ts:113-149 | every reported literal either starts with `#` and decodes as hex, or starts with `rgb` in any case |
| EditorUpdate.ColorAtShape | src/extension.ts:4-6 | the text of a parsing match of any of the three patterns starts with `#` and decodes, or starts with `rgb` in any case |
| EditorUpdate.ShapeAccepted | src/extension.ts:76-87 | a literal that starts with `#` and decodes, or starts with `rgb` in any case, is accepted by the cache |
| EditorUpdate.RgbWordAccepted | src/extension.ts:82-84 | a literal whose first three letters are `rgb` in any case is accepted |
| EditorUpdate.PaintedRangesSpellLiteral | src/extension.ts:172-179 | every range a literal is painted on lies in the text and spells that literal |
| EditorUpdate.FirstPassCachesFound | src/extension.ts:9 | the first pass, starting from the empty cache, caches exactly the literals it finds |
| EditorUpdate.EmptyTextClearsAll | src/extension.ts:192-198 | on an empty text nothing is created and every cached literal is cleared |

## Left out

- The VS Code host API is not modelled. This covers the options passed to
  `createTextEditorDecorationType`, `positionAt` and `Range`, the editor
  objects, and the event wiring in `activate` and `deactivate`. Handles are
  fresh ids, ranges are text offsets, and `setDecorations` is the map
  `calls` from literal to ranges. The order of the calls is not modelled.
- Logging (`console.log`, `console.error`) is not modelled.
- The regular-expression engine and `lastIndex` are not modelled. Each
  pattern is a hand-written matcher. `Patterns.HexRuleIsRegex` ties the hex
  matcher to the regex's own backtracking order.
- Offsets count Unicode scalar values. JavaScript counts UTF-16 code units,
  so the two disagree after a character outside the Basic Multilingual
  Plane.
- Color.HexToRgba: returns null for a literal holding a non-hex character.
  The source's `parseInt` would instead give NaN or a partial value there.
  The hex pattern only matches hex digits, so no such literal reaches the
  function from the scanner.
- DecorationCache.GetOrCreate: a `#` literal holding a non-hex character,
  such as `#ggg`, fails here with `InvalidHex`. The source instead caches a
  handle whose swatch is `rgb(NaN, NaN, NaN)`. No such literal reaches the
  cache from a scan: `EditorUpdate.FoundLiteralsAccepted` proves that every
  literal found by the scan is accepted.
- Color.ParseFloatPrefix: computes the exact rational value of the longest
  numeric prefix. Double-precision rounding is not modelled.
- Color.RgbaToCss: the text of a non-opaque alpha is the parameter `fmt`,
  not JavaScript's number formatting.
- Chars.DecimalValue: reads a channel exactly. JavaScript's `parseInt` loses
  precision above 2^53, but every such value is above 255 and is rejected
  either way.
- The cache is shared by all editors in the source. Here it is threaded
  through `UpdateDecorations`, so several editors mean several successive
  calls.
- The `Guard` parameter: the source has only the check as written. The
  corrected check exists to state the finding, and nothing in the source
  selects it.
- `example.ts` holds only constant data. Its literals appear as
  `ColorVectors` lemmas.

## Findings

| source | as written | input that shows it | evidently intended | confidence | as-written member | corrected member |
|---|---|---|---|---|---|---|
| src/extension.ts:50-54 | `parseFloat` of the `[\d.]+` alpha capture can be NaN, and every comparison with NaN is false, so `a < 0 \|\| a > 1` keeps it | `rgba(0,0,0,.)` (alpha text `.`) | an alpha that is not a number is rejected like one outside [0, 1] | medium; not executed | Scanner.NaNAlphaReported | Color.ParseRgbRgba |

`Color.RgbaKeptAsWritten` is the range check exactly as written, and
`Color.ParseRgbRgba` is the corrected parser. The contract of
`Color.RgbaKeptAsWritten` states that the two differ exactly on the
in-range literals whose alpha is NaN. `Color.NaNAlphaCounterexample` gives
one such capture. `Scanner.NaNAlphaReported` shows the whole scan
reporting `rgba(0,0,0,.)` under the check as written and not under the
corrected one. The corrected reading is the `Corrected` guard, and every
property of the scanner and the update pass is proved for it as well.

=== FILE: cache.dfy ===
/** `getDecorationTypeForColor`: an insert-only cache from the raw colour
    literal to the decoration type created for it. The host's
    `createTextEditorDecorationType` is modelled as a counter that hands out
    fresh ids; a handle remembers the CSS colour it paints. */
module DecorationCache {
  import opened Wrappers
  import opened Chars
  import opened Color
  import opened Patterns

  /** A decoration type: a fresh id and the CSS colour of its swatch. */
  datatype Handle = Handle(id: nat, css: string)

  /** `decorationTypeCache`, keyed by the literal exactly as it appears in
      the text, plus the id the host hands out next. */
  datatype Cache = Cache(entries: map<string, Handle>, nextId: nat)

  /** Every handle was handed out before `nextId`, and no two literals share
      a handle. */
  predicate Valid(c: Cache) {
    && (forall lit :: lit in c.entries ==> c.entries[lit].id < c.nextId)
    && (forall a, b :: a in c.entries && b in c.entries && a != b ==> c.entries[a].id != c.entries[b].id)
  }

  /** The cache before any editor has been decorated. */
  const Empty := Cache(map[], 0)

  /** The two `Error`s the miss path throws. */
  datatype CacheError = InvalidHex(literal: string) | InvalidFormat(literal: string)

  /** `colorString.startsWith('#')`. */
  predicate IsHexLiteral(lit: string) {
    |lit| > 0 && lit[0] == '#'
  }

  /** `colorString.toLowerCase().startsWith('rgb')`: only `R`, `G` and `B`
      lower-case to `r`, `g` and `b`, so this is a case-insensitive look at
      the first three characters. */
  predicate IsRgbLiteral(lit: string) {
    KeywordAt(lit, 0, "rgb")
  }

  /** The CSS colour the miss path computes for a literal, or the error it
      throws. */
  function CssFor(lit: string, fmt: real -> string): (r: Result<string, CacheError>)
    ensures r.Success? <==> (IsHexLiteral(lit) && HexToRgba(lit).Some?) || (!IsHexLiteral(lit) && IsRgbLiteral(lit))
    ensures r.Failure? ==> r.error == (if IsHexLiteral(lit) then InvalidHex(lit) else InvalidFormat(lit))
    ensures r.Success? && IsHexLiteral(lit) ==> r.value == RgbaToCss(HexToRgba(lit).value, fmt)
    ensures r.Success? && !IsHexLiteral(lit) ==> r.value == lit
  {
    if IsHexLiteral(lit) then
      match HexToRgba(lit)
      case None => Failure(InvalidHex(lit))
      case Some(rgba) => Success(RgbaToCss(rgba, fmt))
    else if IsRgbLiteral(lit) then
      Success(lit)
    else
      Failure(InvalidFormat(lit))
  }

  /** The swatch colour of an opaque hex literal is `rgb(r, g, b)` text that
      the `rgb` pattern matches whole and `parseRgbRgba` reads back as the
      colour the literal decodes to. */
  lemma OpaqueHexCssReadsBack(lit: string, fmt: real -> string)
    requires IsHexLiteral(lit) && HexToRgba(lit).Some? && HexToRgba(lit).value.a == 1.0
    ensures var c := HexToRgba(lit).value;
      var ch := Channels(DecimalText(c.r), DecimalText(c.g), DecimalText(c.b), None);
      && CssFor(lit, fmt).Success?
      && MatchAt(RgbPattern, CssFor(lit, fmt).value, 0) == Some(RgbHit(|CssFor(lit, fmt).value|, ch))
      && ParseRgbRgba(ch) == Some(c)
  {
    OpaqueCssRoundTrip(HexToRgba(lit).value, fmt);
  }

  /** A literal the miss path accepts. */
  predicate Accepted(lit: string, fmt: real -> string) {
    CssFor(lit, fmt).Success?
  }

  /** The result of one call: the handle or the thrown error, and the cache
      after the call. */
  datatype Outcome = Outcome(result: Result<Handle, CacheError>, cache: Cache)

  /** `getDecorationTypeForColor`. */
  function GetOrCreate(c: Cache, lit: string, fmt: real -> string): (o: Outcome)
    // a hit returns the cached handle and leaves the cache alone
    ensures lit in c.entries ==> o.result == Success(c.entries[lit]) && o.cache == c
    // a miss succeeds exactly on accepted literals, and a throw changes nothing
    ensures lit !in c.entries ==> (o.result.Success? <==> Accepted(lit, fmt))
    ensures o.result.Failure? ==> o.cache == c && o.result.error == CssFor(lit, fmt).error
    // a successful miss adds exactly the raw literal, with a fresh handle
    ensures lit !in c.entries && o.result.Success? ==>
      && o.result.value == Handle(c.nextId, CssFor(lit, fmt).value)
      && o.cache.entries == c.entries[lit := o.result.value]
      && o.cache.nextId == c.nextId + 1
    ensures Valid(c) ==> Valid(o.cache)
  {
    if lit in c.entries then
      Outcome(Success(c.entries[lit]), c)
    else
      match CssFor(lit, fmt)
      case Failure(e) => Outcome(Failure(e), c)
      case Success(css) =>
        var h := Handle(c.nextId, css);
        Outcome(Success(h), Cache(c.entries[lit := h], c.nextId + 1))
  }

  /** A second call with the same literal hits: same handle, same cache. */
  lemma GetOrCreateIdempotent(c: Cache, lit: string, fmt: real -> string)
    requires GetOrCreate(c, lit, fmt).result.Success?
    ensures var o := GetOrCreate(c, lit, fmt);
      GetOrCreate(o.cache, lit, fmt) == o
  {
  }

  /** A fresh handle differs from every handle already cached. */
  lemma FreshHandle(c: Cache, lit: string, fmt: real -> string)
    requires Valid(c) && lit !in c.entries
    requires GetOrCreate(c, lit, fmt).result.Success?
    ensures forall other :: other in c.entries ==> c.entries[other] != GetOrCreate(c, lit, fmt).result.value
  {
  }
}

=== FILE: chars.dfy ===
/** Character classes of JavaScript regular expressions (without the `u`
    flag) and the decimal / hexadecimal digit arithmetic that `parseInt`
    performs on them. */
module Chars {

  predicate IsDecDigit(c: char) {
    '0' <= c <= '9'
  }

  predicate IsHexDigit(c: char) {
    IsDecDigit(c) || 'a' <= c <= 'f' || 'A' <= c <= 'F'
  }

  /** `\w`: the characters that make up a word for `\b`. */
  predicate IsWordChar(c: char) {
    IsDecDigit(c) || 'a' <= c <= 'z' || 'A' <= c <= 'Z' || c == '_'
  }

  /** `\s`: WhiteSpace and LineTerminator code points of ECMAScript. */
  predicate IsJsSpace(c: char) {
    || c == '\t' || c == '\n' || c == '\U{000B}' || c == '\U{000C}' || c == '\r' || c == ' '
    || c == '\U{00A0}' || c == '\U{1680}' || ('\U{2000}' <= c <= '\U{200A}')
    || c == '\U{2028}' || c == '\U{2029}' || c == '\U{202F}' || c == '\U{205F}'
    || c == '\U{3000}' || c == '\U{FEFF}'
  }

  /** ASCII lower-casing: the only case folding the `i` flag applies to the
      letters of `rgb` and `rgba`. */
  function LowerAscii(c: char): char {
    if 'A' <= c <= 'Z' then (c as int + 32) as char else c
  }

  function DecDigitValue(c: char): (v: nat)
    requires IsDecDigit(c)
    ensures v < 10
  {
    c as int - '0' as int
  }

  /** The hexadecimal digits in order of value, lower case. */
  const LowerHexDigits: string := "0123456789abcdef"

  /** The value of a hex digit is its position among `LowerHexDigits`, once
      the digit is lower-cased: `A` to `F` count as `a` to `f`. */
  function HexDigitValue(c: char): (v: nat)
    requires IsHexDigit(c)
    ensures v < 16 && LowerHexDigits[v] == LowerAscii(c)
    ensures IsDecDigit(c) ==> v == DecDigitValue(c)
  {
    if IsDecDigit(c) then DecDigitValue(c)
    else if 'a' <= c <= 'f' then c as int - 'a' as int + 10
    else c as int - 'A' as int + 10
  }

  /** The lower-case hexadecimal digit of value `d`. */
  function HexChar(d: nat): (c: char)
    requires d < 16
    ensures IsHexDigit(c) && HexDigitValue(c) == d
  {
    if d < 10 then ('0' as int + d) as char else ('a' as int + d - 10) as char
  }

  function DigitChar(d: nat): (c: char)
    requires d < 10
    ensures IsDecDigit(c) && DecDigitValue(c) == d
  {
    ('0' as int + d) as char
  }

  predicate AllDec(s: string) {
    forall i :: 0 <= i < |s| ==> IsDecDigit(s[i])
  }

  predicate AllHex(s: string) {
    forall i :: 0 <= i < |s| ==> IsHexDigit(s[i])
  }

  /** `parseInt(s, 10)` on a non-empty run of decimal digits: the digits read
      most significant first. */
  function DecimalValue(s: string): nat
    requires AllDec(s)
  {
    if s == [] then 0 else 10 * DecimalValue(s[..|s| - 1]) + DecDigitValue(s[|s| - 1])
  }

  /** `${n}` for a non-negative integer: its decimal digits, with no leading
      zero. Reading the text back with `DecimalValue` gives `n` again. */
  function DecimalText(n: nat): (s: string)
    ensures |s| > 0 && AllDec(s)
    ensures DecimalValue(s) == n
    ensures s[0] == '0' ==> s == "0"
    decreases n
  {
    if n < 10 then
      [DigitChar(n)]
    else
      var t := DecimalText(n / 10);
      var s := t + [DigitChar(n % 10)];
      assert s[..|s| - 1] == t;
      s
  }

  /** The character classes the colour patterns repeat with `*` or `+`. */
  datatype CharClass = Space | Digit | Hex | DigitOrDot

  predicate InClass(c: char, cls: CharClass) {
    match cls
    case Space => IsJsSpace(c)
    case Digit => IsDecDigit(c)
    case Hex => IsHexDigit(c)
    case DigitOrDot => IsDecDigit(c) || c == '.'
  }

  /** End of the maximal run of `cls` characters starting at `k`: what a
      greedy `[cls]*` consumes there. */
  function RunEnd(s: string, k: nat, cls: CharClass): (e: nat)
    requires k <= |s|
    ensures k <= e <= |s|
    ensures forall j :: k <= j < e ==> InClass(s[j], cls)
    ensures e == |s| || !InClass(s[e], cls)
    decreases |s| - k
  {
    if k == |s| || !InClass(s[k], cls) then k else RunEnd(s, k + 1, cls)
  }
}

=== FILE: color.dfy ===
/** The colour parsers and printer of the extension: `hexToRgba`,
    `parseRgbRgba` and `rgbaToCss`. */
module Color {
  import opened Wrappers
  import opened Chars

  /** A decoded colour `{ r, g, b, a }`. */
  datatype Rgba = Rgba(r: nat, g: nat, b: nat, a: real)

  predicate InGamut(c: Rgba) {
    c.r <= 255 && c.g <= 255 && c.b <= 255 && 0.0 <= c.a <= 1.0
  }

  /* ---------------- hexadecimal literals ---------------- */

  /** `s.replace(c, '')` with a string pattern: only the first occurrence of
      `c` is removed. */
  function RemoveFirst(s: string, c: char): (t: string)
    ensures c !in s ==> t == s
    ensures c in s ==> |t| == |s| - 1
    ensures |s| > 0 && s[0] == c ==> t == s[1..]
  {
    if s == [] then []
    else
      assert s == [s[0]] + s[1..];
      if s[0] == c then s[1..] else [s[0]] + RemoveFirst(s[1..], c)
  }

  /** `s.split('').map(ch => ch + ch).join('')`: every character doubled. */
  function DoubleEach(s: string): (t: string)
    ensures |t| == 2 * |s|
    ensures forall i :: 0 <= i < |t| ==> t[i] == s[i / 2]
  {
    if s == [] then [] else [s[0], s[0]] + DoubleEach(s[1..])
  }

  /** `parseInt(s.substring(k, k + 2), 16)` on two hex digits. */
  function HexPair(s: string, k: nat): (v: nat)
    requires k + 2 <= |s| && IsHexDigit(s[k]) && IsHexDigit(s[k + 1])
    ensures v <= 255
  {
    16 * HexDigitValue(s[k]) + HexDigitValue(s[k + 1])
  }

  /** The digits after `#` that `hexToRgba` accepts. */
  predicate HexBodyOk(body: string) {
    (|body| == 3 || |body| == 4 || |body| == 6 || |body| == 8) && AllHex(body)
  }

  /** The character `RemoveFirst` removes is the first `c`, and the rest of
      the string is kept in order around it. */
  lemma {:induction false} RemoveFirstAt(s: string, c: char) returns (i: nat)
    requires c in s
    ensures i < |s| && s[i] == c && c !in s[..i]
    ensures RemoveFirst(s, c) == s[..i] + s[i + 1..]
  {
    if s[0] == c {
      i := 0;
    } else {
      assert s == [s[0]] + s[1..];
      var i' := RemoveFirstAt(s[1..], c);
      i := i' + 1;
      assert s[..i] == [s[0]] + s[1..][..i'];
      assert s[i + 1..] == s[1..][i' + 1..];
    }
  }

  lemma DoubleEachHex(s: string)
    ensures AllHex(DoubleEach(s)) <==> AllHex(s)
  {
    var t := DoubleEach(s);
    if AllHex(t) {
      forall i | 0 <= i < |s| ensures IsHexDigit(s[i]) {
        assert t[2 * i] == s[i];
      }
    }
  }

  /** The shorthand expansion of `hexToRgba`: a 3- or 4-digit body has each
      digit doubled; any other body is left alone. */
  function ExpandShort(body: string): (full: string)
    ensures |body| == 3 || |body| == 4 ==> |full| == 2 * |body|
    ensures AllHex(full) <==> AllHex(body)
  {
    DoubleEachHex(body);
    if |body| == 3 || |body| == 4 then DoubleEach(body) else body
  }

  /** The decoding of an expanded body: 6 or 8 digits read as byte pairs, the
      fourth pair (if any) being the alpha over 255; anything else is `None`. */
  function DecodeFull(full: string): (c: Option<Rgba>)
    ensures c.Some? <==> (|full| == 6 || |full| == 8) && AllHex(full)
    ensures c.Some? ==> InGamut(c.value)
    ensures c.Some? && |full| == 6 ==> c.value.a == 1.0
  {
    if |full| == 6 && AllHex(full) then
      Some(Rgba(HexPair(full, 0), HexPair(full, 2), HexPair(full, 4), 1.0))
    else if |full| == 8 && AllHex(full) then
      Some(Rgba(HexPair(full, 0), HexPair(full, 2), HexPair(full, 4), HexPair(full, 6) as real / 255.0))
    else
      None
  }

  /** The decoding half of `hexToRgba`, after the `#` is stripped. Exactly
      the bodies of 3, 4, 6 or 8 hex digits decode, always into range. */
  function DecodeHexBody(body: string): (c: Option<Rgba>)
    ensures c.Some? <==> HexBodyOk(body)
    ensures c.Some? ==> InGamut(c.value)
    ensures c.Some? && (|body| == 3 || |body| == 6) ==> c.value.a == 1.0
  {
    DecodeFull(ExpandShort(body))
  }

  /** `hexToRgba`: the body after the first `#` (or the whole string when
      there is none) is decoded. */
  function HexToRgba(hex: string): (c: Option<Rgba>)
    ensures |hex| > 0 && hex[0] == '#' ==> c == DecodeHexBody(hex[1..])
    ensures '#' !in hex ==> c == DecodeHexBody(hex)
    ensures c.Some? ==> InGamut(c.value)
  {
    DecodeHexBody(RemoveFirst(hex, '#'))
  }

  lemma StripHash(s: string)
    ensures RemoveFirst("#" + s, '#') == s
  {
    assert ("#" + s)[1..] == s;
  }

  /** Reference encoder: the two lower-case hex digits of a byte. */
  function HexByte(n: nat): (s: string)
    requires n < 256
    ensures |s| == 2 && AllHex(s)
  {
    [HexChar(n / 16), HexChar(n % 16)]
  }

  /** A 3- or 4-digit body decodes exactly like its doubled 6- or 8-digit
      form, whatever its characters. */
  lemma ShortHexIsDoubled(s: string)
    requires |s| == 3 || |s| == 4
    ensures HexToRgba("#" + s) == HexToRgba("#" + DoubleEach(s))
  {
    StripHash(s);
    StripHash(DoubleEach(s));
    assert ExpandShort(DoubleEach(s)) == DoubleEach(s) == ExpandShort(s);
  }

  /** `HexByte` is read back by `HexPair`. */
  lemma HexByteReadsBack(n: nat)
    requires n < 256
    ensures HexPair(HexByte(n), 0) == n
  {
  }

  /** `parseInt(_, 16)` ignores letter case: a pair reads as its
      lower-cased digits do. */
  lemma HexPairIgnoresCase(s: string, k: nat)
    requires k + 2 <= |s| && IsHexDigit(s[k]) && IsHexDigit(s[k + 1])
    ensures IsHexDigit(LowerAscii(s[k])) && IsHexDigit(LowerAscii(s[k + 1]))
    ensures HexPair(s, k) == HexPair([LowerAscii(s[k]), LowerAscii(s[k + 1])], 0)
  {
  }

  /** Three two-digit groups after `#` decode group by group, opaque. */
  lemma DecodeThreeGroups(u: string, v: string, w: string, r: nat, g: nat, b: nat)
    requires |u| == 2 && |v| == 2 && |w| == 2 && AllHex(u) && AllHex(v) && AllHex(w)
    requires HexPair(u, 0) == r && HexPair(v, 0) == g && HexPair(w, 0) == b
    ensures HexToRgba("#" + u + v + w) == Some(Rgba(r, g, b, 1.0))
  {
    var body := u + v + w;
    assert "#" + u + v + w == "#" + body;
    StripHash(body);
    ThreePairs(u, v, w);
    SixDigitBody(body, r, g, b);
  }

  // Separate so that the pair values are read off the joined body alone.
  lemma ThreePairs(u: string, v: string, w: string)
    requires |u| == 2 && |v| == 2 && |w| == 2 && AllHex(u) && AllHex(v) && AllHex(w)
    ensures var body := u + v + w;
      && |body| == 6 && AllHex(body)
      && HexPair(body, 0) == HexPair(u, 0) && HexPair(body, 2) == HexPair(v, 0) && HexPair(body, 4) == HexPair(w, 0)
  {
    var body := u + v + w;
    assert body[0] == u[0] && body[1] == u[1] && body[2] == v[0] && body[3] == v[1] && body[4] == w[0] && body[5] == w[1];
  }

  // Separate so that the body is not in view as a concatenation.
  lemma SixDigitBody(body: string, r: nat, g: nat, b: nat)
    requires |body| == 6 && AllHex(body)
    requires HexPair(body, 0) == r && HexPair(body, 2) == g && HexPair(body, 4) == b
    ensures DecodeHexBody(body) == Some(Rgba(r, g, b, 1.0))
  {
    assert ExpandShort(body) == body;
  }

  /** Four two-digit groups after `#` decode group by group, the last as the
      alpha over 255. */
  lemma DecodeFourGroups(u: string, v: string, w: string, z: string, r: nat, g: nat, b: nat, x: nat)
    requires |u| == 2 && |v| == 2 && |w| == 2 && |z| == 2
    requires AllHex(u) && AllHex(v) && AllHex(w) && AllHex(z)
    requires HexPair(u, 0) == r && HexPair(v, 0) == g && HexPair(w, 0) == b && HexPair(z, 0) == x
    ensures HexToRgba("#" + u + v + w + z) == Some(Rgba(r, g, b, x as real / 255.0))
  {
    var body := u + v + w + z;
    assert "#" + u + v + w + z == "#" + body;
    StripHash(body);
    FourPairs(u, v, w, z);
    EightDigitBody(body, r, g, b, x);
  }

  // Separate so that the body is not in view as a concatenation.
  lemma EightDigitBody(body: string, r: nat, g: nat, b: nat, x: nat)
    requires |body| == 8 && AllHex(body)
    requires HexPair(body, 0) == r && HexPair(body, 2) == g && HexPair(body, 4) == b && HexPair(body, 6) == x
    ensures DecodeHexBody(body) == Some(Rgba(r, g, b, x as real / 255.0))
  {
    assert ExpandShort(body) == body;
  }

  // Separate so that the pair values are read off the joined body alone.
  lemma FourPairs(u: string, v: string, w: string, z: string)
    requires |u| == 2 && |v| == 2 && |w| == 2 && |z| == 2
    requires AllHex(u) && AllHex(v) && AllHex(w) && AllHex(z)
    ensures var body := u + v + w + z;
      && |body| == 8 && AllHex(body)
      && HexPair(body, 0) == HexPair(u, 0) && HexPair(body, 2) == HexPair(v, 0)
      && HexPair(body, 4) == HexPair(w, 0) && HexPair(body, 6) == HexPair(z, 0)
  {
    var body := u + v + w + z;
    assert body[0] == u[0] && body[1] == u[1] && body[2] == v[0] && body[3] == v[1];
    assert body[4] == w[0] && body[5] == w[1] && body[6] == z[0] && body[7] == z[1];
  }

  /** Six hex digits decode to the three bytes they spell, fully opaque. */
  lemma HexBytesDecode(r: nat, g: nat, b: nat)
    requires r < 256 && g < 256 && b < 256
    ensures HexToRgba("#" + HexByte(r) + HexByte(g) + HexByte(b)) == Some(Rgba(r, g, b, 1.0))
  {
    HexByteReadsBack(r);
    HexByteReadsBack(g);
    HexByteReadsBack(b);
    DecodeThreeGroups(HexByte(r), HexByte(g), HexByte(b), r, g, b);
  }

  /** Eight hex digits decode to three bytes and the fourth byte over 255. */
  lemma HexBytesWithAlphaDecode(r: nat, g: nat, b: nat, x: nat)
    requires r < 256 && g < 256 && b < 256 && x < 256
    ensures HexToRgba("#" + HexByte(r) + HexByte(g) + HexByte(b) + HexByte(x))
         == Some(Rgba(r, g, b, x as real / 255.0))
  {
    HexByteReadsBack(r);
    HexByteReadsBack(g);
    HexByteReadsBack(b);
    HexByteReadsBack(x);
    DecodeFourGroups(HexByte(r), HexByte(g), HexByte(b), HexByte(x), r, g, b, x);
  }

  /* ---------------- rgb() / rgba() literals ---------------- */

  /** The capture groups of an `rgb(...)` or `rgba(...)` match: three runs
      of decimal digits and, for `rgba` only, the `[\d.]+` alpha text. */
  datatype Channels = Channels(r: string, g: string, b: string, alpha: Option<string>)

  predicate IsAlphaText(t: string) {
    |t| > 0 && forall i :: 0 <= i < |t| ==> InClass(t[i], DigitOrDot)
  }

  predicate WellFormed(ch: Channels) {
    && |ch.r| > 0 && AllDec(ch.r)
    && |ch.g| > 0 && AllDec(ch.g)
    && |ch.b| > 0 && AllDec(ch.b)
    && (ch.alpha.Some? ==> IsAlphaText(ch.alpha.value))
  }

  function Pow10(n: nat): (p: nat)
    ensures p >= 1
  {
    if n == 0 then 1 else 10 * Pow10(n - 1)
  }

  /** Digits read after a decimal point. */
  function Fraction(d: string): (x: real)
    requires AllDec(d)
  {
    DecimalValue(d) as real / Pow10(|d|) as real
  }

  /** `parseFloat` on text made of digits and dots: the value of the longest
      prefix of the form `\d+(\.\d*)?` or `\.\d+`, or `None` (NaN) when there
      is no such prefix. */
  function ParseFloatPrefix(s: string): (x: Option<real>)
    ensures x.Some? <==> (|s| > 0 && IsDecDigit(s[0])) || (|s| > 1 && s[0] == '.' && IsDecDigit(s[1]))
    ensures x.Some? ==> x.value >= 0.0
  {
    var i := RunEnd(s, 0, Digit);
    if i > 0 then
      var whole := DecimalValue(s[..i]) as real;
      if i < |s| && s[i] == '.' then
        var j := RunEnd(s, i + 1, Digit);
        Some(whole + Fraction(s[i + 1..j]))
      else
        Some(whole)
    else if |s| > 1 && s[0] == '.' && IsDecDigit(s[1]) then
      var j := RunEnd(s, 1, Digit);
      Some(Fraction(s[1..j]))
    else
      None
  }

  /** The alpha of a match: `1` for `rgb`, `parseFloat` of the capture for `rgba`. */
  function AlphaValue(ch: Channels): Option<real> {
    match ch.alpha
    case None => Some(1.0)
    case Some(t) => ParseFloatPrefix(t)
  }

  /** `parseRgbRgba`, with the NaN alpha rejected (see `RgbaKeptAsWritten`). */
  function ParseRgbRgba(ch: Channels): (c: Option<Rgba>)
    requires WellFormed(ch)
    ensures c.Some? <==>
      && DecimalValue(ch.r) <= 255 && DecimalValue(ch.g) <= 255 && DecimalValue(ch.b) <= 255
      && AlphaValue(ch).Some? && AlphaValue(ch).value <= 1.0
    ensures c.Some? ==> InGamut(c.value)
    ensures c.Some? ==> c.value.r == DecimalValue(ch.r) && c.value.g == DecimalValue(ch.g) && c.value.b == DecimalValue(ch.b)
    ensures c.Some? ==> c.value.a == AlphaValue(ch).value
    ensures c.Some? && ch.alpha.None? ==> c.value.a == 1.0
  {
    var r := DecimalValue(ch.r);
    var g := DecimalValue(ch.g);
    var b := DecimalValue(ch.b);
    var a :- AlphaValue(ch);
    if r > 255 || g > 255 || b > 255 || a < 0.0 || a > 1.0 then None else Some(Rgba(r, g, b, a))
  }

  /** The range check of `parseRgbRgba` exactly as written in JavaScript:
      every comparison with NaN is false, so a NaN alpha is not rejected.
      It keeps exactly what `ParseRgbRgba` keeps plus the in-range literals
      whose alpha text parses to NaN. */
  predicate RgbaKeptAsWritten(ch: Channels): (ok: bool)
    requires WellFormed(ch)
    ensures ok <==> ParseRgbRgba(ch).Some? || NaNAlpha(ch)
  {
    var r := DecimalValue(ch.r);
    var g := DecimalValue(ch.g);
    var b := DecimalValue(ch.b);
    var a := AlphaValue(ch);
    !(r > 255 || g > 255 || b > 255 || (a.Some? && (a.value < 0.0 || a.value > 1.0)))
  }

  /** In-range channels whose alpha text `parseFloat` reads as NaN. */
  predicate NaNAlpha(ch: Channels)
    requires WellFormed(ch)
  {
    DecimalValue(ch.r) <= 255 && DecimalValue(ch.g) <= 255 && DecimalValue(ch.b) <= 255 && AlphaValue(ch).None?
  }


  /** Which range check of `parseRgbRgba` a reading of the program applies:
      the one written in the source, which lets a NaN alpha through, or the
      corrected one of `ParseRgbRgba`. */
  datatype Guard = AsWritten | Corrected

  /** Whether `parseRgbRgba` returns a colour (a truthy object) for the
      captures, under the given range check. */
  predicate RgbaKept(ch: Channels, guard: Guard)
    requires WellFormed(ch)
  {
    match guard
    case AsWritten => RgbaKeptAsWritten(ch)
    case Corrected => ParseRgbRgba(ch).Some?
  }

  /** `rgba(0,0,0,.)`: the capture `.` is NaN, which the source keeps as a
      colour and the corrected parser rejects. */
  lemma NaNAlphaCounterexample()
    ensures var ch := Channels("0", "0", "0", Some("."));
      WellFormed(ch) && RgbaKeptAsWritten(ch) && ParseRgbRgba(ch).None?
  {
    var ch := Channels("0", "0", "0", Some("."));
    assert ParseFloatPrefix(".") == None;
  }

  /** `rgbaToCss`: `rgb(r, g, b)` for an opaque colour, else `rgba(r, g, b, a)`
      where `fmt` is JavaScript's number-to-string conversion. */
  function RgbaToCss(c: Rgba, fmt: real -> string): (css: string)
    ensures c.a == 1.0 ==> |css| > 4 && css[..4] == "rgb("
    ensures c.a != 1.0 ==> |css| > 5 && css[..5] == "rgba("
  {
    if c.a == 1.0 then
      "rgb(" + DecimalText(c.r) + ", " + DecimalText(c.g) + ", " + DecimalText(c.b) + ")"
    else
      "rgba(" + DecimalText(c.r) + ", " + DecimalText(c.g) + ", " + DecimalText(c.b) + ", " + fmt(c.a) + ")"
  }
}

=== FILE: patterns.dfy ===
/** The three regular expressions of the extension, written as matchers that
    say whether (and how long) a pattern matches at a given position:

      hex   `#([0-9A-Fa-f]{3,4}|[0-9A-Fa-f]{6}|[0-9A-Fa-f]{8})\b`
      rgb   `rgb\s*\(\s*(\d+)\s*,\s*(\d+)\s*,\s*(\d+)\s*\)`                 (flag i)
      rgba  `rgba\s*\(\s*(\d+)\s*,\s*(\d+)\s*,\s*(\d+)\s*,\s*([\d.]+)\s*\)`  (flag i)

    Apart from the hex alternation, every repeated class is followed by a
    token it cannot contain, so each pattern matches deterministically and
    greedy runs (`RunEnd`) are exact. */
module Patterns {
  import opened Wrappers
  import opened Chars
  import opened Color

  datatype Pattern = HexPattern | RgbPattern | RgbaPattern

  /** What one pattern matched at a position: the length of `match[0]` and,
      for the functional forms, the capture groups. */
  datatype Hit = HexHit(len: nat) | RgbHit(len: nat, channels: Channels)

  /** The first character of every match. No match contains one anywhere
      but at its start, so no match can begin inside another. */
  predicate IsStarter(c: char) {
    c == '#' || c == 'r' || c == 'R'
  }

  /* ---------------- hex ---------------- */

  predicate IsWordAt(text: string, j: int) {
    0 <= j < |text| && IsWordChar(text[j])
  }

  /** `\b` at position `k`. */
  predicate WordBoundary(text: string, k: int) {
    IsWordAt(text, k - 1) != IsWordAt(text, k)
  }

  /** The single rule the hex pattern comes down to: after `#`, the maximal
      run of hex digits has 3, 4, 6 or 8 digits and is followed by the end of
      the text or a non-word character. The result is the match length. */
  function HexMatchAt(text: string, i: nat): (r: Option<nat>)
    requires i < |text|
    ensures r.Some? ==> text[i] == '#' && i + r.value <= |text|
    ensures r.Some? ==> r.value in {4, 5, 7, 9}
    ensures r.Some? ==> forall j :: i < j < i + r.value ==> IsHexDigit(text[j])
  {
    if text[i] != '#' then None
    else
      var n := RunEnd(text, i + 1, Hex) - (i + 1);
      if (n == 3 || n == 4 || n == 6 || n == 8) && (i + 1 + n == |text| || !IsWordChar(text[i + 1 + n])) then
        Some(1 + n)
      else
        None
  }

  /** One alternative of the hex regex: `#`, exactly `n` hex digits, `\b`. */
  predicate HexAlternative(text: string, i: nat, n: nat)
    requires i < |text|
  {
    && i + 1 + n <= |text|
    && (forall j :: i + 1 <= j < i + 1 + n ==> IsHexDigit(text[j]))
    && WordBoundary(text, i + 1 + n)
  }

  /** The hex regex as the backtracking engine runs it at position `i`: the
      greedy `{3,4}` tries 4 digits then 3, then the alternatives 6 and 8. */
  function HexRegexAt(text: string, i: nat): Option<nat>
    requires i < |text|
  {
    if text[i] != '#' then None
    else if HexAlternative(text, i, 4) then Some(5)
    else if HexAlternative(text, i, 3) then Some(4)
    else if HexAlternative(text, i, 6) then Some(7)
    else if HexAlternative(text, i, 8) then Some(9)
    else None
  }

  /** An alternative of `n >= 1` digits succeeds exactly when `n` is the
      length of the maximal hex run and the run ends the word. */
  lemma HexAlternativeIsMaximalRun(text: string, i: nat, n: nat)
    requires i < |text| && n >= 1
    ensures var e := RunEnd(text, i + 1, Hex);
      HexAlternative(text, i, n) <==> (e == i + 1 + n && (e == |text| || !IsWordChar(text[e])))
  {
    var e := RunEnd(text, i + 1, Hex);
    if i + n < |text| && IsHexDigit(text[i + n]) {
      assert IsWordAt(text, i + n);
    }
  }

  /** The one-rule matcher and the regex agree at every position. */
  lemma HexRuleIsRegex(text: string, i: nat)
    requires i < |text|
    ensures HexMatchAt(text, i) == HexRegexAt(text, i)
  {
    HexAlternativeIsMaximalRun(text, i, 3);
    HexAlternativeIsMaximalRun(text, i, 4);
    HexAlternativeIsMaximalRun(text, i, 6);
    HexAlternativeIsMaximalRun(text, i, 8);
  }

  /* ---------------- rgb( ) and rgba( ) ---------------- */

  /** `word` at `i`, compared under the `i` flag. */
  predicate KeywordAt(text: string, i: nat, word: string) {
    i + |word| <= |text| && forall j :: 0 <= j < |word| ==> LowerAscii(text[i + j]) == word[j]
  }

  /** A run of white space, which `\s*` consumes. */
  predicate Spaces(w: string) {
    forall j :: 0 <= j < |w| ==> IsJsSpace(w[j])
  }

  /** `\s*c`: the position just after `c`. */
  function Punct(text: string, k: nat, c: char): (r: Option<nat>)
    requires k <= |text|
    ensures r.Some? ==> k < r.value <= |text| && text[r.value - 1] == c
    ensures r.Some? ==> forall j :: k <= j < r.value - 1 ==> IsJsSpace(text[j])
    ensures r.Some? && !IsStarter(c) ==> forall j :: k <= j < r.value ==> !IsStarter(text[j])
  {
    var s := RunEnd(text, k, Space);
    if s < |text| && text[s] == c then Some(s + 1) else None
  }

  /** A capture group and the position after it. */
  datatype Capture = Capture(value: string, end: nat)

  /** `\s*(cls+)`: skips white space, then captures a greedy run of `cls`. */
  function Group(text: string, k: nat, cls: CharClass): (r: Option<Capture>)
    requires k <= |text|
    requires cls != Space
    ensures r.Some? ==> k < r.value.end <= |text| && 0 < |r.value.value| <= r.value.end
    ensures r.Some? ==> r.value.value == text[r.value.end - |r.value.value|..r.value.end]
    ensures r.Some? ==> forall j :: 0 <= j < |r.value.value| ==> InClass(r.value.value[j], cls)
    ensures r.Some? ==> forall j :: k <= j < r.value.end ==> !IsStarter(text[j])
  {
    var s := RunEnd(text, k, Space);
    var e := RunEnd(text, s, cls);
    if e > s then Some(Capture(text[s..e], e)) else None
  }

  /** The three channel groups `\s*(\d+)\s*,\s*(\d+)\s*,\s*(\d+)`. */
  datatype Triple = Triple(red: string, green: string, blue: string, end: nat)

  function ChannelGroups(text: string, k: nat): (r: Option<Triple>)
    requires k <= |text|
    ensures r.Some? ==> k < r.value.end <= |text|
    ensures r.Some? ==> |r.value.red| > 0 && AllDec(r.value.red)
    ensures r.Some? ==> |r.value.green| > 0 && AllDec(r.value.green)
    ensures r.Some? ==> |r.value.blue| > 0 && AllDec(r.value.blue)
    ensures r.Some? ==> forall j :: k <= j < r.value.end ==> !IsStarter(text[j])
  {
    var red :- Group(text, k, Digit);
    var c1 :- Punct(text, red.end, ',');
    var green :- Group(text, c1, Digit);
    var c2 :- Punct(text, green.end, ',');
    var blue :- Group(text, c2, Digit);
    Some(Triple(red.value, green.value, blue.value, blue.end))
  }

  /** The tail after the channels: `\s*,\s*([\d.]+)\s*\)` with alpha, or
      `\s*\)` without. Gives the alpha capture and the end of the match. */
  function Tail(text: string, k: nat, withAlpha: bool): (r: Option<(Option<string>, nat)>)
    requires k <= |text|
    ensures r.Some? ==> k < r.value.1 <= |text| && text[r.value.1 - 1] == ')'
    ensures r.Some? ==> (r.value.0.Some? <==> withAlpha)
    ensures r.Some? && r.value.0.Some? ==> IsAlphaText(r.value.0.value)
    ensures r.Some? ==> forall j :: k <= j < r.value.1 ==> !IsStarter(text[j])
  {
    if withAlpha then
      var c3 :- Punct(text, k, ',');
      var alpha :- Group(text, c3, DigitOrDot);
      var rp :- Punct(text, alpha.end, ')');
      Some((Some(alpha.value), rp))
    else
      var rp :- Punct(text, k, ')');
      Some((None, rp))
  }

  function Keyword(withAlpha: bool): string {
    if withAlpha then "rgba" else "rgb"
  }

  /** A keyword match starts with `r` or `R` and holds no other starter. */
  lemma KeywordStarters(text: string, i: nat, withAlpha: bool)
    requires KeywordAt(text, i, Keyword(withAlpha))
    ensures IsStarter(text[i])
    ensures forall j :: i < j < i + |Keyword(withAlpha)| ==> !IsStarter(text[j])
  {
    var word := Keyword(withAlpha);
    assert LowerAscii(text[i + 0]) == word[0] == 'r';
    forall j | i < j < i + |word| ensures !IsStarter(text[j]) {
      assert LowerAscii(text[i + (j - i)]) == word[j - i];
    }
  }

  /** The `rgb` (without alpha) or `rgba` (with alpha) pattern at `i`. */
  function FunctionalAt(text: string, i: nat, withAlpha: bool): (r: Option<Hit>)
    requires i < |text|
    ensures r.Some? ==> r.value.RgbHit? && 0 < r.value.len && i + r.value.len <= |text|
    ensures r.Some? ==> KeywordAt(text, i, Keyword(withAlpha))
    ensures r.Some? ==> WellFormed(r.value.channels) && (r.value.channels.alpha.Some? <==> withAlpha)
    ensures r.Some? ==> IsStarter(text[i])
    ensures r.Some? ==> forall j :: i < j < i + r.value.len ==> !IsStarter(text[j])
  {
    if !KeywordAt(text, i, Keyword(withAlpha)) then None
    else
      KeywordStarters(text, i, withAlpha);
      var lp :- Punct(text, i + |Keyword(withAlpha)|, '(');
      var rgb :- ChannelGroups(text, lp);
      var tail :- Tail(text, rgb.end, withAlpha);
      Some(RgbHit(tail.1 - i, Channels(rgb.red, rgb.green, rgb.blue, tail.0)))
  }

  /** Whether, and how, pattern `p` matches at position `i`. */
  function MatchAt(p: Pattern, text: string, i: nat): (r: Option<Hit>)
    requires i < |text|
    ensures r.Some? ==> 0 < r.value.len && i + r.value.len <= |text|
    ensures r.Some? ==> (p == HexPattern <==> r.value.HexHit?)
    ensures r.Some? && r.value.RgbHit? ==> WellFormed(r.value.channels)
    ensures r.Some? ==> IsStarter(text[i]) && forall j :: i < j < i + r.value.len ==> !IsStarter(text[j])
  {
    match p
    case HexPattern =>
      (match HexMatchAt(text, i)
       case Some(n) => Some(HexHit(n))
       case None => None)
    case RgbPattern => FunctionalAt(text, i, false)
    case RgbaPattern => FunctionalAt(text, i, true)
  }

  /** The text a hit covers, `match[0]`. */
  function Literal(text: string, i: nat, h: Hit): string
    requires i + h.len <= |text|
  {
    text[i..i + h.len]
  }

  /** The filter `findAllColors` applies to a hit: `hexToRgba(match[0])` for
      the hex pattern, `parseRgbRgba(match, hasAlpha)` under the given range
      check for the others. */
  predicate Parses(text: string, i: nat, h: Hit, guard: Guard): (ok: bool)
    requires i + h.len <= |text|
    requires h.RgbHit? ==> WellFormed(h.channels)
    ensures h.RgbHit? && ok ==>
      DecimalValue(h.channels.r) <= 255 && DecimalValue(h.channels.g) <= 255 && DecimalValue(h.channels.b) <= 255
    ensures h.RgbHit? && ParseRgbRgba(h.channels).Some? ==> ok
    ensures h.RgbHit? && guard == Corrected && ok ==> ParseRgbRgba(h.channels).Some?
    ensures h.HexHit? && ok ==> var c := HexToRgba(text[i..i + h.len]); c.Some? && InGamut(c.value)
  {
    match h
    case HexHit(n) => HexToRgba(Literal(text, i, h)).Some?
    case RgbHit(_, ch) => RgbaKept(ch, guard)
  }

  /* ---------------- printing and re-reading ---------------- */

  /** The maximal run is determined by where it stops. */
  lemma RunEndIs(s: string, k: nat, cls: CharClass, e: nat)
    requires k <= e <= |s|
    requires forall j :: k <= j < e ==> InClass(s[j], cls)
    requires e == |s| || !InClass(s[e], cls)
    ensures RunEnd(s, k, cls) == e
  {
  }

  lemma PunctAt(text: string, k: nat, c: char)
    requires k < |text| && text[k] == c && !IsJsSpace(c)
    ensures Punct(text, k, c) == Some(k + 1)
  {
    RunEndIs(text, k, Space, k);
  }

  /** `\s*(cls+)` reads the white space in `[k, s)` and then exactly `d`. */
  lemma GroupAt(text: string, k: nat, s: nat, d: string, cls: CharClass)
    requires cls == Digit || cls == DigitOrDot
    requires k <= s && s + |d| <= |text| && |d| > 0
    requires forall j :: k <= j < s ==> IsJsSpace(text[j])
    requires text[s..s + |d|] == d
    requires forall j :: 0 <= j < |d| ==> InClass(d[j], cls)
    requires s + |d| == |text| || !InClass(text[s + |d|], cls)
    ensures var r := Group(text, k, cls); r.Some? && r.value.value == d && r.value.end == s + |d|
  {
    assert text[s] == d[0];
    RunEndIs(text, k, Space, s);
    forall j | s <= j < s + |d| ensures InClass(text[j], cls) {
      assert text[j] == d[j - s];
    }
    RunEndIs(text, s, cls, s + |d|);
  }

  /** A run of digits followed by a non-digit is read as one group. */
  lemma DigitGroupAt(text: string, k: nat, d: string)
    requires |d| > 0 && AllDec(d) && k + |d| < |text|
    requires text[k..k + |d|] == d
    requires !IsDecDigit(text[k + |d|])
    ensures var r := Group(text, k, Digit); r.Some? && r.value.value == d && r.value.end == k + |d|
  {
    GroupAt(text, k, k, d, Digit);
  }

  /** `, ` followed by a run of digits and a non-digit. */
  lemma CommaGroupAt(text: string, k: nat, d: string)
    requires |d| > 0 && AllDec(d) && k + 2 + |d| < |text|
    requires text[k] == ',' && text[k + 1] == ' '
    requires text[k + 2..k + 2 + |d|] == d
    requires !IsDecDigit(text[k + 2 + |d|])
    ensures Punct(text, k, ',') == Some(k + 1)
    ensures var r := Group(text, k + 1, Digit); r.Some? && r.value.value == d && r.value.end == k + 2 + |d|
  {
    PunctAt(text, k, ',');
    GroupAt(text, k + 1, k + 2, d, Digit);
  }

  /** `ChannelGroups` assembled from its parts. */
  lemma ChannelGroupsParts(text: string, k: nat, c1: nat, c2: nat, r: string, g: string, b: string, e: nat)
    requires k <= |text|
    requires var x := Group(text, k, Digit); x.Some? && x.value.value == r && Punct(text, x.value.end, ',') == Some(c1)
    requires c1 <= |text|
    requires var x := Group(text, c1, Digit); x.Some? && x.value.value == g && Punct(text, x.value.end, ',') == Some(c2)
    requires c2 <= |text|
    requires var x := Group(text, c2, Digit); x.Some? && x.value.value == b && x.value.end == e
    ensures var t := ChannelGroups(text, k);
      t.Some? && t.value.red == r && t.value.green == g && t.value.blue == b && t.value.end == e
  {
  }

  /** The three groups of `r, g, b` as `rgbaToCss` prints them, ending at
      `c1`. */
  lemma PrintedChannelsAt(text: string, k: nat, r: string, g: string, b: string, a1: nat, b1: nat, c1: nat)
    requires |r| > 0 && AllDec(r) && |g| > 0 && AllDec(g) && |b| > 0 && AllDec(b)
    requires a1 == k + |r| && b1 == a1 + 2 + |g| && c1 == b1 + 2 + |b| && c1 < |text|
    requires text[k..a1] == r && text[a1] == ',' && text[a1 + 1] == ' '
    requires text[a1 + 2..b1] == g && text[b1] == ',' && text[b1 + 1] == ' '
    requires text[b1 + 2..c1] == b && !IsDecDigit(text[c1])
    ensures var t := ChannelGroups(text, k);
      && t.Some? && t.value.red == r && t.value.green == g && t.value.blue == b && t.value.end == c1
  {
    RedGreenAt(text, k, r, g, a1, b1);
    CommaGroupAt(text, b1, b);
    ChannelGroupsParts(text, k, a1 + 1, b1 + 1, r, g, b, c1);
  }

  /** The first two groups of `PrintedChannelsAt`, proved apart to keep
      each proof context to two groups. */
  lemma RedGreenAt(text: string, k: nat, r: string, g: string, a1: nat, b1: nat)
    requires |r| > 0 && AllDec(r) && |g| > 0 && AllDec(g)
    requires a1 == k + |r| && b1 == a1 + 2 + |g| && b1 < |text|
    requires text[k..a1] == r && text[a1] == ',' && text[a1 + 1] == ' '
    requires text[a1 + 2..b1] == g && text[b1] == ','
    ensures var x := Group(text, k, Digit); x.Some? && x.value.value == r && x.value.end == a1
    ensures Punct(text, a1, ',') == Some(a1 + 1)
    ensures var y := Group(text, a1 + 1, Digit); y.Some? && y.value.value == g && y.value.end == b1
  {
    DigitGroupAt(text, k, r);
    CommaGroupAt(text, a1, g);
  }

  /** `FunctionalAt` assembled from its parts. */
  lemma FunctionalAtParts(text: string, i: nat, withAlpha: bool, lp: nat, r: string, g: string, b: string, e: nat, tail: (Option<string>, nat))
    requires i < |text| && KeywordAt(text, i, Keyword(withAlpha))
    requires Punct(text, i + |Keyword(withAlpha)|, '(') == Some(lp)
    requires var t := ChannelGroups(text, lp);
      t.Some? && t.value.red == r && t.value.green == g && t.value.blue == b && t.value.end == e
    requires Tail(text, e, withAlpha) == Some(tail)
    ensures var h := FunctionalAt(text, i, withAlpha);
      && h.Some? && h.value.RgbHit? && h.value.len == tail.1 - i
      && h.value.channels.r == r && h.value.channels.g == g && h.value.channels.b == b
      && h.value.channels.alpha == tail.0
  {
  }

  /** The layout of `rgb(R, G, B)`: the keyword, the parenthesis, the three
      groups and their separators, the closing parenthesis. */
  predicate RgbLayout(css: string, r: string, g: string, b: string) {
    var a1 := 4 + |r|; var b1 := a1 + 2 + |g|; var c1 := b1 + 2 + |b|;
    && |css| == c1 + 1
    && css[0] == 'r' && css[1] == 'g' && css[2] == 'b' && css[3] == '('
    && css[4..a1] == r && css[a1] == ',' && css[a1 + 1] == ' '
    && css[a1 + 2..b1] == g && css[b1] == ',' && css[b1 + 1] == ' '
    && css[b1 + 2..c1] == b && css[c1] == ')'
  }

  /** Where the pieces of `rgb(R, G, B)` sit. */
  lemma PrintedRgbLayout(css: string, r: string, g: string, b: string)
    requires css == "rgb(" + r + ", " + g + ", " + b + ")"
    ensures RgbLayout(css, r, g, b)
  {
  }

  /** The keyword and the parentheses of text laid out as `rgb(R, G, B)`. */
  lemma RgbLayoutFrame(css: string, r: string, g: string, b: string)
    requires |r| > 0 && AllDec(r) && |g| > 0 && AllDec(g) && |b| > 0 && AllDec(b)
    requires RgbLayout(css, r, g, b)
    ensures KeywordAt(css, 0, Keyword(false))
    ensures Punct(css, 3, '(') == Some(4)
    ensures Tail(css, |css| - 1, false) == Some((None, |css|))
  {
    assert KeywordAt(css, 0, Keyword(false)) by {
      assert Keyword(false) == "rgb";
    }
    PunctAt(css, 3, '(');
    PunctAt(css, |css| - 1, ')');
  }

  /** The channel groups of text laid out as `rgb(R, G, B)`. */
  lemma RgbLayoutChannels(css: string, r: string, g: string, b: string)
    requires |r| > 0 && AllDec(r) && |g| > 0 && AllDec(g) && |b| > 0 && AllDec(b)
    requires RgbLayout(css, r, g, b)
    ensures ChannelGroups(css, 4) == Some(Triple(r, g, b, |css| - 1))
  {
    PrintedChannelsAt(css, 4, r, g, b, 4 + |r|, 4 + |r| + 2 + |g|, |css| - 1);
  }

  /** The `rgb` pattern matches whole text whose keyword, parentheses and
      channel groups are where `rgb(R, G, B)` puts them. */
  lemma RgbMatchFromParts(css: string, r: string, g: string, b: string)
    requires |css| > 4
    requires KeywordAt(css, 0, Keyword(false))
    requires Punct(css, 3, '(') == Some(4)
    requires ChannelGroups(css, 4) == Some(Triple(r, g, b, |css| - 1))
    requires Tail(css, |css| - 1, false) == Some((None, |css|))
    ensures FunctionalAt(css, 0, false) == Some(RgbHit(|css|, Channels(r, g, b, None)))
    ensures MatchAt(RgbPattern, css, 0) == Some(RgbHit(|css|, Channels(r, g, b, None)))
  {
    var tail: (Option<string>, nat) := (None, |css|);
    FunctionalAtParts(css, 0, false, 4, r, g, b, |css| - 1, tail);
  }

  /** Text laid out as `rgb(R, G, B)` with digit runs R, G, B is matched
      whole by the `rgb` pattern, with R, G, B as its groups. */
  lemma RgbLayoutMatches(css: string, r: string, g: string, b: string)
    requires |r| > 0 && AllDec(r) && |g| > 0 && AllDec(g) && |b| > 0 && AllDec(b)
    requires RgbLayout(css, r, g, b)
    ensures MatchAt(RgbPattern, css, 0) == Some(RgbHit(|css|, Channels(r, g, b, None)))
  {
    RgbLayoutFrame(css, r, g, b);
    RgbLayoutChannels(css, r, g, b);
    RgbMatchFromParts(css, r, g, b);
  }

  /* ---------------- any layout the functional patterns accept ---------------- */

  /** The tokens of a text, joined. */
  function Concat(ps: seq<string>): (t: string) {
    if ps == [] then [] else Concat(ps[..|ps| - 1]) + ps[|ps| - 1]
  }

  /** Joining one more token appends it. */
  lemma ConcatStep(ps: seq<string>, k: nat)
    requires k < |ps|
    ensures Concat(ps[..k + 1]) == Concat(ps[..k]) + ps[k]
  {
    assert ps[..k + 1][..k] == ps[..k];
  }

  /** Where token `k` starts in `Concat(ps)`. */
  function Offset(ps: seq<string>, k: nat): nat
    requires k <= |ps|
  {
    |Concat(ps[..k])|
  }

  /** The joined text begins with the join of any prefix of the tokens. */
  lemma {:induction false} ConcatPrefix(ps: seq<string>, k: nat)
    requires k <= |ps|
    ensures |Concat(ps[..k])| <= |Concat(ps)| && Concat(ps)[..|Concat(ps[..k])|] == Concat(ps[..k])
  {
    if k < |ps| {
      var init := ps[..|ps| - 1];
      assert init[..k] == ps[..k];
      ConcatPrefix(init, k);
      assert Concat(ps) == Concat(init) + ps[|ps| - 1];
    } else {
      assert ps[..k] == ps;
    }
  }

  /** Token `k` sits in the joined text between its offset and the next. */
  lemma TokenAt(ps: seq<string>, k: nat)
    requires k < |ps|
    ensures Offset(ps, k) + |ps[k]| == Offset(ps, k + 1) <= |Concat(ps)|
    ensures Concat(ps)[Offset(ps, k)..Offset(ps, k + 1)] == ps[k]
  {
    ConcatStep(ps, k);
    ConcatPrefix(ps, k + 1);
  }

  lemma EndOffset(ps: seq<string>)
    ensures Offset(ps, 0) == 0 && Offset(ps, |ps|) == |Concat(ps)|
  {
    assert ps[..|ps|] == ps;
  }

  predicate AllIn(d: string, cls: CharClass) {
    forall j :: 0 <= j < |d| ==> InClass(d[j], cls)
  }

  /** `kw` is `word` in any mix of upper and lower case. */
  predicate SpellsKeyword(kw: string, word: string) {
    |kw| == |word| && forall j :: 0 <= j < |kw| ==> LowerAscii(kw[j]) == word[j]
  }

  /** The first character of token `k + 1`, or of token `k + 2` when token
      `k + 1` is empty. */
  lemma CharAfter(ps: seq<string>, k: nat)
    requires k + 2 < |ps| && |ps[k + 2]| > 0
    ensures Offset(ps, k + 1) < |Concat(ps)|
    ensures Concat(ps)[Offset(ps, k + 1)] == if |ps[k + 1]| > 0 then ps[k + 1][0] else ps[k + 2][0]
  {
    TokenAt(ps, k + 1);
    TokenAt(ps, k + 2);
    var t := Concat(ps);
    if |ps[k + 1]| > 0 {
      assert t[Offset(ps, k + 1)] == t[Offset(ps, k + 1)..Offset(ps, k + 2)][0];
    } else {
      assert t[Offset(ps, k + 2)] == t[Offset(ps, k + 2)..Offset(ps, k + 3)][0];
    }
  }

  /** `\s*c` over a white-space token followed by the token `c`. */
  lemma SpacedPunct(ps: seq<string>, k: nat, c: char)
    requires k + 1 < |ps| && Spaces(ps[k]) && ps[k + 1] == [c] && !IsJsSpace(c)
    ensures Offset(ps, k) <= |Concat(ps)|
    ensures Punct(Concat(ps), Offset(ps, k), c) == Some(Offset(ps, k + 2))
  {
    var t := Concat(ps);
    SpaceToken(ps, k);
    TokenAt(ps, k + 1);
    var s := Offset(ps, k + 1);
    assert t[s] == t[s..Offset(ps, k + 2)][0];
    RunEndIs(t, Offset(ps, k), Space, s);
  }

  /** The characters of a white-space token are white space in the text. */
  lemma SpaceToken(ps: seq<string>, k: nat)
    requires k < |ps| && Spaces(ps[k])
    ensures Offset(ps, k) <= Offset(ps, k + 1) <= |Concat(ps)|
    ensures forall j :: Offset(ps, k) <= j < Offset(ps, k + 1) ==> IsJsSpace(Concat(ps)[j])
  {
    var t := Concat(ps);
    TokenAt(ps, k);
    var o := Offset(ps, k);
    var s := Offset(ps, k + 1);
    forall j | o <= j < s ensures IsJsSpace(t[j]) {
      assert t[j] == t[o..s][j - o];
    }
  }

  /** `\s*(cls+)` over a white-space token, a token of `cls` characters,
      and a token that starts with neither. */
  lemma SpacedGroup(ps: seq<string>, k: nat, cls: CharClass)
    requires cls == Digit || cls == DigitOrDot
    requires k + 3 < |ps| && Spaces(ps[k]) && |ps[k + 1]| > 0 && |ps[k + 3]| > 0
    requires AllIn(ps[k + 1], cls)
    requires Spaces(ps[k + 2]) && !InClass(ps[k + 3][0], cls)
    ensures Offset(ps, k) <= |Concat(ps)|
    ensures var r := Group(Concat(ps), Offset(ps, k), cls);
      r.Some? && r.value.value == ps[k + 1] && r.value.end == Offset(ps, k + 2)
  {
    SpaceToken(ps, k);
    TokenAt(ps, k + 1);
    CharAfter(ps, k + 1);
    GroupAt(Concat(ps), Offset(ps, k), Offset(ps, k + 1), ps[k + 1], cls);
  }

  /** The tokens of an `rgb(...)` (no alpha) or `rgba(...)` (alpha) text:
      the keyword, then `(`, the three channel digits separated by `,`, the
      alpha for `rgba`, and `)`, with the white space `sp[n]` before every
      token after the keyword. */
  function FunctionalTokens(kw: string, sp: seq<string>, ch: Channels): (ps: seq<string>)
    requires |sp| == 9
  {
    match ch.alpha
    case None =>
      [kw, sp[0], "(", sp[1], ch.r, sp[2], ",", sp[3], ch.g, sp[4], ",", sp[5], ch.b, sp[6], ")"]
    case Some(a) =>
      [kw, sp[0], "(", sp[1], ch.r, sp[2], ",", sp[3], ch.g, sp[4], ",", sp[5], ch.b, sp[6], ",", sp[7], a, sp[8], ")"]
  }

  /** The keyword, the `(` and the channel groups of such a text. */
  lemma TokensHead(ps: seq<string>, ch: Channels, word: string)
    requires |ps| >= 15 && WellFormed(ch)
    requires SpellsKeyword(ps[0], word)
    requires ps[2] == "(" && ps[4] == ch.r && ps[6] == "," && ps[8] == ch.g && ps[10] == "," && ps[12] == ch.b
    requires ps[14] == "," || ps[14] == ")"
    requires Spaces(ps[1]) && Spaces(ps[3]) && Spaces(ps[5]) && Spaces(ps[7]) && Spaces(ps[9]) && Spaces(ps[11]) && Spaces(ps[13])
    ensures KeywordAt(Concat(ps), 0, word)
    ensures Offset(ps, 1) == |word| && Punct(Concat(ps), |word|, '(') == Some(Offset(ps, 3))
    ensures var t := ChannelGroups(Concat(ps), Offset(ps, 3));
      && t.Some? && t.value.red == ch.r && t.value.green == ch.g && t.value.blue == ch.b
      && t.value.end == Offset(ps, 13)
  {
    var t := Concat(ps);
    EndOffset(ps);
    TokenAt(ps, 0);
    forall j | 0 <= j < |word| ensures LowerAscii(t[0 + j]) == word[j] {
      assert t[j] == t[0..Offset(ps, 1)][j];
    }
    SpacedPunct(ps, 1, '(');
    SpacedGroup(ps, 3, Digit);
    SpacedPunct(ps, 5, ',');
    SpacedGroup(ps, 7, Digit);
    SpacedPunct(ps, 9, ',');
    SpacedGroup(ps, 11, Digit);
    ChannelGroupsParts(t, Offset(ps, 3), Offset(ps, 7), Offset(ps, 11), ch.r, ch.g, ch.b, Offset(ps, 13));
  }

  /** The tail of such a text: `)` alone, or `,`, the alpha and `)`. */
  lemma TokensTail(ps: seq<string>, ch: Channels, withAlpha: bool)
    requires WellFormed(ch) && (ch.alpha.Some? <==> withAlpha)
    requires |ps| == (if withAlpha then 19 else 15)
    requires Spaces(ps[13])
    requires !withAlpha ==> ps[14] == ")"
    requires withAlpha ==> ps[14] == "," && Spaces(ps[15]) && ps[16] == ch.alpha.value && Spaces(ps[17]) && ps[18] == ")"
    ensures Offset(ps, 13) <= |Concat(ps)|
    ensures Tail(Concat(ps), Offset(ps, 13), withAlpha) == Some((ch.alpha, |Concat(ps)|))
  {
    EndOffset(ps);
    SpacedPunct(ps, 13, if withAlpha then ',' else ')');
    if withAlpha {
      SpacedGroup(ps, 15, DigitOrDot);
      SpacedPunct(ps, 17, ')');
    }
  }

  /** Tokens laid out as a functional literal are matched whole. */
  lemma TokensMatch(ps: seq<string>, ch: Channels, withAlpha: bool)
    requires WellFormed(ch) && (ch.alpha.Some? <==> withAlpha)
    requires |ps| == (if withAlpha then 19 else 15)
    requires SpellsKeyword(ps[0], Keyword(withAlpha))
    requires ps[2] == "(" && ps[4] == ch.r && ps[6] == "," && ps[8] == ch.g && ps[10] == "," && ps[12] == ch.b
    requires Spaces(ps[1]) && Spaces(ps[3]) && Spaces(ps[5]) && Spaces(ps[7]) && Spaces(ps[9]) && Spaces(ps[11]) && Spaces(ps[13])
    requires !withAlpha ==> ps[14] == ")"
    requires withAlpha ==> ps[14] == "," && Spaces(ps[15]) && ps[16] == ch.alpha.value && Spaces(ps[17]) && ps[18] == ")"
    ensures |Concat(ps)| > 0
    ensures FunctionalAt(Concat(ps), 0, withAlpha) == Some(RgbHit(|Concat(ps)|, ch))
  {
    var t := Concat(ps);
    TokensHead(ps, ch, Keyword(withAlpha));
    TokensTail(ps, ch, withAlpha);
    var tail := (ch.alpha, |t|);
    FunctionalAtParts(t, 0, withAlpha, Offset(ps, 3), ch.r, ch.g, ch.b, Offset(ps, 13), tail);
  }

  /** Both functional patterns accept their keyword in any case and any
      white space between the tokens: the whole text is matched, with the
      channel and alpha texts as the capture groups. */
  lemma FunctionalTextMatches(kw: string, sp: seq<string>, ch: Channels, withAlpha: bool)
    requires |sp| == 9 && forall n :: 0 <= n < 9 ==> Spaces(sp[n])
    requires SpellsKeyword(kw, Keyword(withAlpha))
    requires WellFormed(ch) && (ch.alpha.Some? <==> withAlpha)
    ensures var t := Concat(FunctionalTokens(kw, sp, ch));
      && |t| > 0
      && MatchAt(if withAlpha then RgbaPattern else RgbPattern, t, 0) == Some(RgbHit(|t|, ch))
  {
    var ps := FunctionalTokens(kw, sp, ch);
    assert Spaces(sp[0]) && Spaces(sp[1]) && Spaces(sp[2]) && Spaces(sp[3]) && Spaces(sp[4]) && Spaces(sp[5]) && Spaces(sp[6]);
    assert Spaces(sp[7]) && Spaces(sp[8]);
    TokensMatch(ps, ch, withAlpha);
  }

  /* ---------------- every match has such a layout ---------------- */

  /** One more token, read from the text right after the tokens before it. */
  lemma SliceStep(ps: seq<string>, k: nat, text: string, x: nat, y: nat, z: nat)
    requires k < |ps| && x <= y <= z <= |text|
    requires Concat(ps[..k]) == text[x..y] && ps[k] == text[y..z]
    ensures Concat(ps[..k + 1]) == text[x..z]
  {
    ConcatStep(ps, k);
    SliceSplit(text, x, y, z);
  }

  /** The join of two token lists is the join of each, in order. */
  lemma {:induction false} ConcatAppend(a: seq<string>, b: seq<string>)
    ensures Concat(a + b) == Concat(a) + Concat(b)
    decreases |b|
  {
    if b == [] {
      assert a + b == a;
    } else {
      var init := b[..|b| - 1];
      assert (a + b)[..|a + b| - 1] == a + init;
      ConcatAppend(a, init);
      assert Concat(b) == Concat(init) + b[|b| - 1];
    }
  }

  /** A character of the text is a one-character slice. */
  lemma CharSlice(text: string, j: nat, c: char)
    requires j < |text| && text[j] == c
    ensures text[j..j + 1] == [c]
  {
  }

  /** Soundness of `\s*(cls+)`: from `k` to the start `s` of the capture
      there is only white space, and the capture is the text from `s` to
      where the group ends. */
  lemma GroupSound(text: string, k: nat, cls: CharClass) returns (s: nat)
    requires k <= |text| && cls != Space && Group(text, k, cls).Some?
    ensures var x := Group(text, k, cls).value;
      k <= s <= x.end <= |text| && Spaces(text[k..s]) && x.value == text[s..x.end]
  {
    var x := Group(text, k, cls).value;
    s := x.end - |x.value|;
  }

  /** `\s*c` consumed white space and then `c`. */
  lemma PunctCut(text: string, k: nat, c: char)
    requires k <= |text| && Punct(text, k, c).Some?
    ensures var r := Punct(text, k, c).value;
      k <= r - 1 && Spaces(text[k..r - 1]) && text[r - 1..r] == [c]
  {
    var r := Punct(text, k, c).value;
    CharSlice(text, r - 1, c);
  }

  /** The channel tokens, read from the text: white space from `k`, the red
      capture from `sr` to `er`, white space, `,` ending at `c1`, and so on
      to the end `eb` of the blue capture. Apart from `ChannelGroupsLayout`,
      so that the join is proved without the matcher's contracts in view. */
  lemma ChannelJoin(text: string, k: nat, sr: nat, er: nat, c1: nat, sg: nat, eg: nat, c2: nat, sb: nat, eb: nat,
                    r: string, g: string, b: string) returns (w: seq<string>)
    requires k <= sr <= er < c1 <= sg <= eg < c2 <= sb <= eb <= |text|
    requires Spaces(text[k..sr]) && r == text[sr..er] && Spaces(text[er..c1 - 1]) && text[c1 - 1..c1] == ","
    requires Spaces(text[c1..sg]) && g == text[sg..eg] && Spaces(text[eg..c2 - 1]) && text[c2 - 1..c2] == ","
    requires Spaces(text[c2..sb]) && b == text[sb..eb]
    ensures |w| == 5 && forall n :: 0 <= n < 5 ==> Spaces(w[n])
    ensures text[k..eb] == Concat(ChannelTokens(w, r, g, b))
  {
    w := [text[k..sr], text[er..c1 - 1], text[c1..sg], text[eg..c2 - 1], text[c2..sb]];
    AllSpaces(w, 5);
    JoinTen(ChannelTokens(w, r, g, b), text, [k, sr, er, c1 - 1, c1, sg, eg, c2 - 1, c2, sb, eb]);
  }

  /** The first `n` strings of `ws` are white space, checked one by one. */
  lemma AllSpaces(ws: seq<string>, n: nat)
    requires n <= |ws| && n <= 9
    requires n > 0 ==> Spaces(ws[0])
    requires n > 1 ==> Spaces(ws[1])
    requires n > 2 ==> Spaces(ws[2])
    requires n > 3 ==> Spaces(ws[3])
    requires n > 4 ==> Spaces(ws[4])
    requires n > 5 ==> Spaces(ws[5])
    requires n > 6 ==> Spaces(ws[6])
    requires n > 7 ==> Spaces(ws[7])
    requires n > 8 ==> Spaces(ws[8])
    ensures forall m :: 0 <= m < n ==> Spaces(ws[m])
  {
  }

  /** The tokens from `(` to the blue channel: white space `w[n]` before
      and after each channel but the last, and `,` between channels. */
  function ChannelTokens(w: seq<string>, r: string, g: string, b: string): seq<string>
    requires |w| == 5
  {
    [w[0], r, w[1], ",", w[2], g, w[3], ",", w[4], b]
  }

  /** The tokens after the blue channel: white space and `)`, or white
      space, `,`, the alpha, white space and `)`. */
  function TailTokens(w: seq<string>, alpha: Option<string>): seq<string>
    requires |w| == 3
  {
    match alpha
    case None => [w[0], ")"]
    case Some(a) => [w[0], ",", w[1], a, w[2], ")"]
  }

  /** The layout of a literal, split at `(` and after the blue channel. */
  lemma TokensSplit(kw: string, sp: seq<string>, ch: Channels)
    requires |sp| == 9
    ensures FunctionalTokens(kw, sp, ch)
         == [kw, sp[0], "("] + ChannelTokens(sp[1..6], ch.r, ch.g, ch.b) + TailTokens(sp[6..], ch.alpha)
  {
  }

  /** What `\s*(\d+)\s*,\s*(\d+)\s*,\s*(\d+)` consumed: white space, the
      three captures and two commas, and nothing else. */
  lemma ChannelGroupsLayout(text: string, k: nat) returns (w: seq<string>)
    requires k <= |text| && ChannelGroups(text, k).Some?
    ensures |w| == 5 && forall n :: 0 <= n < 5 ==> Spaces(w[n])
    ensures var t := ChannelGroups(text, k).value;
      text[k..t.end] == Concat(ChannelTokens(w, t.red, t.green, t.blue))
  {
    var red := Group(text, k, Digit).value;
    var c1 := Punct(text, red.end, ',').value;
    var green := Group(text, c1, Digit).value;
    var c2 := Punct(text, green.end, ',').value;
    var blue := Group(text, c2, Digit).value;
    var sr := GroupSound(text, k, Digit);
    var sg := GroupSound(text, c1, Digit);
    var sb := GroupSound(text, c2, Digit);
    PunctCut(text, red.end, ',');
    PunctCut(text, green.end, ',');
    w := ChannelJoin(text, k, sr, red.end, c1, sg, green.end, c2, sb, blue.end, red.value, green.value, blue.value);
  }

  /** Ten tokens read one after the other from the text join to the slice
      they span; the tokens and the cuts are parameters so that no slice of
      a sequence display is taken. */
  lemma JoinTen(ps: seq<string>, text: string, q: seq<nat>)
    requires |ps| == 10 && |q| == 11
    requires q[0] <= q[1] <= q[2] <= q[3] <= q[4] <= q[5] <= q[6] <= q[7] <= q[8] <= q[9] <= q[10] <= |text|
    requires ps[0] == text[q[0]..q[1]] && ps[1] == text[q[1]..q[2]] && ps[2] == text[q[2]..q[3]]
    requires ps[3] == text[q[3]..q[4]] && ps[4] == text[q[4]..q[5]] && ps[5] == text[q[5]..q[6]]
    requires ps[6] == text[q[6]..q[7]] && ps[7] == text[q[7]..q[8]] && ps[8] == text[q[8]..q[9]]
    requires ps[9] == text[q[9]..q[10]]
    ensures Concat(ps) == text[q[0]..q[10]]
  {
    assert ps[..0] == [];
    SliceStep(ps, 0, text, q[0], q[0], q[1]);
    SliceStep(ps, 1, text, q[0], q[1], q[2]);
    SliceStep(ps, 2, text, q[0], q[2], q[3]);
    SliceStep(ps, 3, text, q[0], q[3], q[4]);
    SliceStep(ps, 4, text, q[0], q[4], q[5]);
    SliceStep(ps, 5, text, q[0], q[5], q[6]);
    SliceStep(ps, 6, text, q[0], q[6], q[7]);
    SliceStep(ps, 7, text, q[0], q[7], q[8]);
    SliceStep(ps, 8, text, q[0], q[8], q[9]);
    SliceStep(ps, 9, text, q[0], q[9], q[10]);
    assert ps[..10] == ps;
  }

  /** What `\s*\)` or `\s*,\s*([\d.]+)\s*\)` consumed: white space, `)`,
      and for `rgba` a comma and the alpha capture before it. */
  lemma TailLayout(text: string, k: nat, withAlpha: bool) returns (w: seq<string>)
    requires k <= |text| && Tail(text, k, withAlpha).Some?
    ensures |w| == 3 && forall n :: 0 <= n < 3 ==> Spaces(w[n])
    ensures var t := Tail(text, k, withAlpha).value;
      text[k..t.1] == Concat(TailTokens(w, t.0))
  {
    if withAlpha {
      var c3 := Punct(text, k, ',').value;
      var alpha := Group(text, c3, DigitOrDot).value;
      var rp := Punct(text, alpha.end, ')').value;
      PunctCut(text, k, ',');
      var sa := GroupSound(text, c3, DigitOrDot);
      PunctCut(text, alpha.end, ')');
      w := AlphaTailJoin(text, k, c3, sa, alpha.end, rp, alpha.value);
    } else {
      var rp := Punct(text, k, ')').value;
      PunctCut(text, k, ')');
      w := [text[k..rp - 1], "", ""];
      AllSpaces(w, 3);
      var ps := TailTokens(w, None);
      assert ps[..0] == [];
      SliceStep(ps, 0, text, k, k, rp - 1);
      SliceStep(ps, 1, text, k, rp - 1, rp);
      assert ps[..2] == ps;
    }
  }

  /** The tokens of an `rgba` tail, read from the text: white space from
      `k`, `,` ending at `c3`, white space, the alpha from `sa` to `ea`,
      white space and `)` ending at `rp`. */
  lemma AlphaTailJoin(text: string, k: nat, c3: nat, sa: nat, ea: nat, rp: nat, a: string) returns (w: seq<string>)
    requires k < c3 <= sa <= ea < rp <= |text|
    requires Spaces(text[k..c3 - 1]) && text[c3 - 1..c3] == "," && Spaces(text[c3..sa]) && a == text[sa..ea]
    requires Spaces(text[ea..rp - 1]) && text[rp - 1..rp] == ")"
    ensures |w| == 3 && forall n :: 0 <= n < 3 ==> Spaces(w[n])
    ensures text[k..rp] == Concat(TailTokens(w, Some(a)))
  {
    w := [text[k..c3 - 1], text[c3..sa], text[ea..rp - 1]];
    AllSpaces(w, 3);
    var ps := TailTokens(w, Some(a));
    assert ps[..0] == [];
    SliceStep(ps, 0, text, k, k, c3 - 1);
    SliceStep(ps, 1, text, k, c3 - 1, c3);
    SliceStep(ps, 2, text, k, c3, sa);
    SliceStep(ps, 3, text, k, sa, ea);
    SliceStep(ps, 4, text, k, ea, rp - 1);
    SliceStep(ps, 5, text, k, rp - 1, rp);
    assert ps[..6] == ps;
  }

  /** Three consecutive stretches of the text, each the join of its tokens,
      are together the join of all the tokens. */
  lemma JoinThree(text: string, x: nat, y: nat, z: nat, e: nat, a: seq<string>, b: seq<string>, c: seq<string>)
    requires x <= y <= z <= e <= |text|
    requires Concat(a) == text[x..y] && Concat(b) == text[y..z] && Concat(c) == text[z..e]
    ensures Concat(a + b + c) == text[x..e]
  {
    ConcatAppend(a, b);
    ConcatAppend(a + b, c);
    SliceSplit(text, x, y, z);
    SliceSplit(text, x, z, e);
  }

  lemma SliceSplit(text: string, x: nat, y: nat, z: nat)
    requires x <= y <= z <= |text|
    ensures text[x..z] == text[x..y] + text[y..z]
  {
  }

  /** The keyword, white space and `(`: the head of a functional match. */
  lemma HeadLayout(text: string, i: nat, withAlpha: bool) returns (kw: string, w: string)
    requires i < |text| && KeywordAt(text, i, Keyword(withAlpha))
    requires Punct(text, i + |Keyword(withAlpha)|, '(').Some?
    ensures SpellsKeyword(kw, Keyword(withAlpha)) && Spaces(w)
    ensures text[i..Punct(text, i + |Keyword(withAlpha)|, '(').value] == Concat([kw, w, "("])
  {
    var word := Keyword(withAlpha);
    var lp := Punct(text, i + |word|, '(').value;
    PunctCut(text, i + |word|, '(');
    kw := text[i..i + |word|];
    forall j | 0 <= j < |kw| ensures LowerAscii(kw[j]) == word[j] {
      assert kw[j] == text[i + j];
    }
    w := text[i + |word|..lp - 1];
    HeadJoin(text, i, i + |word|, lp);
  }

  /** The head tokens, read from the text: the keyword from `i` to `e`,
      white space, and `(` ending at `lp`. */
  lemma HeadJoin(text: string, i: nat, e: nat, lp: nat)
    requires i <= e < lp <= |text| && text[lp - 1..lp] == "("
    ensures text[i..lp] == Concat([text[i..e], text[e..lp - 1], "("])
  {
    var ps := [text[i..e], text[e..lp - 1], "("];
    assert ps[..0] == [];
    SliceStep(ps, 0, text, i, i, e);
    SliceStep(ps, 1, text, i, e, lp - 1);
    SliceStep(ps, 2, text, i, lp - 1, lp);
    assert ps[..3] == ps;
  }

  /** The white space of the head, the channels and the tail, numbered as
      `FunctionalTokens` numbers them. */
  lemma NineSpaces(w0: string, w: seq<string>, v: seq<string>) returns (sp: seq<string>)
    requires Spaces(w0) && |w| == 5 && |v| == 3
    requires forall n :: 0 <= n < 5 ==> Spaces(w[n])
    requires forall n :: 0 <= n < 3 ==> Spaces(v[n])
    ensures |sp| == 9 && sp[0] == w0 && sp[1..6] == w && sp[6..] == v
    ensures forall n :: 0 <= n < 9 ==> Spaces(sp[n])
  {
    sp := [w0] + w + v;
    assert sp[1..6] == w && sp[6..] == v;
    assert Spaces(w[0]) && Spaces(w[1]) && Spaces(w[2]) && Spaces(w[3]) && Spaces(w[4]);
    assert Spaces(v[0]) && Spaces(v[1]) && Spaces(v[2]);
    AllSpaces(sp, 9);
  }

  /** The head, channel and tail layouts together are the layout of the
      whole literal. */
  lemma FunctionalJoin(text: string, i: nat, lp: nat, e: nat, f: nat, kw: string, w0: string,
                       w: seq<string>, v: seq<string>, ch: Channels) returns (sp: seq<string>)
    requires i <= lp <= e <= f <= |text| && |w| == 5 && |v| == 3
    requires Spaces(w0) && (forall n :: 0 <= n < 5 ==> Spaces(w[n])) && (forall n :: 0 <= n < 3 ==> Spaces(v[n]))
    requires text[i..lp] == Concat([kw, w0, "("])
    requires text[lp..e] == Concat(ChannelTokens(w, ch.r, ch.g, ch.b))
    requires text[e..f] == Concat(TailTokens(v, ch.alpha))
    ensures |sp| == 9 && forall n :: 0 <= n < 9 ==> Spaces(sp[n])
    ensures text[i..f] == Concat(FunctionalTokens(kw, sp, ch))
  {
    sp := NineSpaces(w0, w, v);
    TokensSplit(kw, sp, ch);
    JoinThree(text, i, lp, e, f, [kw, sp[0], "("], ChannelTokens(sp[1..6], ch.r, ch.g, ch.b), TailTokens(sp[6..], ch.alpha));
  }

  /** The steps of a functional match, the converse of `FunctionalAtParts`:
      the keyword, `(` ending at `lp`, the channel groups `t` and the tail. */
  lemma FunctionalAtSplit(text: string, i: nat, withAlpha: bool) returns (lp: nat, t: Triple, tail: (Option<string>, nat))
    requires i < |text| && FunctionalAt(text, i, withAlpha).Some?
    ensures KeywordAt(text, i, Keyword(withAlpha))
    ensures Punct(text, i + |Keyword(withAlpha)|, '(') == Some(lp)
    ensures lp <= |text| && ChannelGroups(text, lp) == Some(t)
    ensures t.end <= |text| && Tail(text, t.end, withAlpha) == Some(tail)
  {
    var p := Punct(text, i + |Keyword(withAlpha)|, '(');
    assert p.Some?;
    lp := p.value;
    var c := ChannelGroups(text, lp);
    assert c.Some?;
    t := c.value;
    var q := Tail(text, t.end, withAlpha);
    assert q.Some?;
    tail := q.value;
  }

  /** Soundness of the functional patterns, the converse of
      `FunctionalTextMatches`: whatever they match is the keyword in some
      letter case and the tokens `(`, channels, commas, alpha and `)` with
      only white space between them, the captures being the tokens. */
  lemma FunctionalAtSound(text: string, i: nat, withAlpha: bool) returns (kw: string, sp: seq<string>)
    requires i < |text| && FunctionalAt(text, i, withAlpha).Some?
    ensures SpellsKeyword(kw, Keyword(withAlpha))
    ensures |sp| == 9 && forall n :: 0 <= n < 9 ==> Spaces(sp[n])
    ensures var h := FunctionalAt(text, i, withAlpha).value;
      text[i..i + h.len] == Concat(FunctionalTokens(kw, sp, h.channels))
  {
    var lp, t, tail := FunctionalAtSplit(text, i, withAlpha);
    FunctionalAtParts(text, i, withAlpha, lp, t.red, t.green, t.blue, t.end, tail);
    kw, sp := StepsLayout(text, i, withAlpha, lp, t, tail, tail.1, Channels(t.red, t.green, t.blue, tail.0));
  }

  /** The layout of the text the steps of a functional match consumed. */
  lemma StepsLayout(text: string, i: nat, withAlpha: bool, lp: nat, t: Triple, tail: (Option<string>, nat),
                    f: nat, ch: Channels)
    returns (kw: string, sp: seq<string>)
    requires i < |text| && KeywordAt(text, i, Keyword(withAlpha))
    requires Punct(text, i + |Keyword(withAlpha)|, '(') == Some(lp)
    requires lp <= |text| && ChannelGroups(text, lp) == Some(t)
    requires t.end <= |text| && Tail(text, t.end, withAlpha) == Some(tail)
    ensures SpellsKeyword(kw, Keyword(withAlpha))
    ensures |sp| == 9 && forall n :: 0 <= n < 9 ==> Spaces(sp[n])
    requires f == tail.1 && ch == Channels(t.red, t.green, t.blue, tail.0)
    ensures i <= f <= |text|
    ensures text[i..f] == Concat(FunctionalTokens(kw, sp, ch))
  {
    var w0;
    kw, w0 := HeadLayout(text, i, withAlpha);
    var w := ChannelGroupsLayout(text, lp);
    var v := TailLayout(text, t.end, withAlpha);
    sp := FunctionalJoin(text, i, lp, t.end, f, kw, w0, w, v, ch);
  }

  /* ---------------- a functional match reads only what it covers ---------------- */

  /** `t` sits in `text` at offset `i`. */
  predicate PlacedAt(text: string, t: string, i: nat) {
    i + |t| <= |text| && forall j :: 0 <= j < |t| ==> text[i + j] == t[j]
  }

  /** `t` sits in `a + t + b` right after `a`. */
  lemma PlacedInConcat(a: string, t: string, b: string)
    ensures PlacedAt(a + t + b, t, |a|)
  {
  }

  lemma CharIn(text: string, t: string, i: nat, j: nat)
    requires PlacedAt(text, t, i) && j < |t|
    ensures text[i + j] == t[j]
  {
  }

  lemma SliceIn(text: string, t: string, i: nat, a: nat, b: nat)
    requires PlacedAt(text, t, i) && a <= b <= |t|
    ensures text[i + a..i + b] == t[a..b]
  {
    forall j | 0 <= j < b - a ensures text[i + a..i + b][j] == t[a..b][j] {
      CharIn(text, t, i, a + j);
    }
  }

  /** A greedy run that stops inside `t` stops at the same place in any
      text around `t`. */
  lemma RunEndIn(text: string, t: string, i: nat, k: nat, cls: CharClass)
    requires PlacedAt(text, t, i) && k <= |t| && RunEnd(t, k, cls) < |t|
    ensures RunEnd(text, i + k, cls) == i + RunEnd(t, k, cls)
  {
    var e := RunEnd(t, k, cls);
    forall j | i + k <= j < i + e ensures InClass(text[j], cls) {
      CharIn(text, t, i, j - i);
    }
    CharIn(text, t, i, e);
    RunEndIs(text, i + k, cls, i + e);
  }

  /** `\s*c` inside `t`, read around `t` from `tk`, the same position in
      the longer text. */
  lemma PunctIn(text: string, t: string, i: nat, k: nat, tk: nat, c: char, r: nat) returns (tr: nat)
    requires PlacedAt(text, t, i) && k <= |t| && tk == i + k && Punct(t, k, c) == Some(r)
    ensures tk <= |text| && Punct(text, tk, c) == Some(tr) && tr == i + r
  {
    tr := i + r;
    var s := RunEnd(t, k, Space);
    RunEndIn(text, t, i, k, Space);
    CharIn(text, t, i, s);
  }

  /** A group that ends inside `t` reads the same capture around `t`. */
  lemma GroupIn(text: string, t: string, i: nat, k: nat, tk: nat, cls: CharClass, x: Capture) returns (tx: Capture)
    requires PlacedAt(text, t, i) && k <= |t| && tk == i + k && cls != Space
    requires Group(t, k, cls) == Some(x) && x.end < |t|
    ensures tk <= |text| && Group(text, tk, cls) == Some(tx) && tx.value == x.value && tx.end == i + x.end
  {
    tx := Capture(x.value, i + x.end);
    var s := RunEnd(t, k, Space);
    var e := RunEnd(t, s, cls);
    RunEndIn(text, t, i, k, Space);
    RunEndIn(text, t, i, s, cls);
    SliceIn(text, t, i, s, e);
  }

  /** A group followed by `\s*c`, read around `t`. */
  lemma GroupPunctIn(text: string, t: string, i: nat, k: nat, tk: nat, cls: CharClass, x: Capture, c: char, r: nat)
    returns (tx: Capture, tr: nat)
    requires PlacedAt(text, t, i) && k <= |t| && tk == i + k && cls != Space
    requires Group(t, k, cls) == Some(x) && Punct(t, x.end, c) == Some(r)
    ensures tk <= |text| && Group(text, tk, cls) == Some(tx) && Punct(text, tx.end, c) == Some(tr)
    ensures tx.value == x.value && tx.end == i + x.end && tr == i + r
  {
    tx := GroupIn(text, t, i, k, tk, cls, x);
    tr := PunctIn(text, t, i, x.end, tx.end, c, r);
  }

  lemma KeywordIn(text: string, t: string, i: nat, word: string)
    requires PlacedAt(text, t, i) && KeywordAt(t, 0, word)
    ensures KeywordAt(text, i, word)
  {
    forall j | 0 <= j < |word| ensures LowerAscii(text[i + j]) == word[j] {
      CharIn(text, t, i, j);
    }
  }

  /* The steps of `FunctionalAt`, each with the position or capture it
     returns; a match is these three in a row. */

  /** `word\s*(` from `i`, ending at `lp`. */
  predicate HeadSteps(text: string, i: nat, word: string, lp: nat) {
    KeywordAt(text, i, word) && Punct(text, i + |word|, '(') == Some(lp)
  }

  /** `(\d+)\s*,\s*(\d+)\s*,\s*(\d+)` from `k`. */
  predicate ChannelSteps(text: string, k: nat, red: Capture, c1: nat, green: Capture, c2: nat, blue: Capture) {
    && k <= |text|
    && Group(text, k, Digit) == Some(red) && Punct(text, red.end, ',') == Some(c1)
    && Group(text, c1, Digit) == Some(green) && Punct(text, green.end, ',') == Some(c2)
    && Group(text, c2, Digit) == Some(blue)
  }

  /** `\s*,\s*([\d.]+)\s*\)` from `k` with alpha, `\s*\)` without,
      ending at `rp`. */
  predicate TailSteps(text: string, k: nat, withAlpha: bool, c3: nat, alpha: Capture, rp: nat) {
    && k <= |text|
    && if withAlpha then
         Punct(text, k, ',') == Some(c3) && Group(text, c3, DigitOrDot) == Some(alpha) && Punct(text, alpha.end, ')') == Some(rp)
       else
         Punct(text, k, ')') == Some(rp)
  }

  /** The alpha capture, or none, that the tail steps read. */
  function AlphaOf(withAlpha: bool, alpha: Capture): Option<string> {
    if withAlpha then Some(alpha.value) else None
  }

  lemma HeadIn(text: string, t: string, i: nat, word: string, lp: nat) returns (tlp: nat)
    requires PlacedAt(text, t, i) && HeadSteps(t, 0, word, lp)
    ensures HeadSteps(text, i, word, tlp) && tlp == i + lp
  {
    KeywordIn(text, t, i, word);
    tlp := PunctIn(text, t, i, |word|, i + |word|, '(', lp);
  }

  lemma ChannelStepsIn(text: string, t: string, i: nat, k: nat, tk: nat, red: Capture, c1: nat, green: Capture, c2: nat, blue: Capture)
    returns (tred: Capture, tc1: nat, tgreen: Capture, tc2: nat, tblue: Capture)
    requires PlacedAt(text, t, i) && tk == i + k
    requires ChannelSteps(t, k, red, c1, green, c2, blue) && blue.end < |t|
    ensures ChannelSteps(text, tk, tred, tc1, tgreen, tc2, tblue)
    ensures tred.value == red.value && tgreen.value == green.value && tblue.value == blue.value && tblue.end == i + blue.end
  {
    tred, tc1 := GroupPunctIn(text, t, i, k, tk, Digit, red, ',', c1);
    tgreen, tc2 := GroupPunctIn(text, t, i, c1, tc1, Digit, green, ',', c2);
    tblue := GroupIn(text, t, i, c2, tc2, Digit, blue);
  }

  lemma TailStepsIn(text: string, t: string, i: nat, k: nat, tk: nat, withAlpha: bool, c3: nat, alpha: Capture, rp: nat)
    returns (tc3: nat, talpha: Capture, trp: nat)
    requires PlacedAt(text, t, i) && tk == i + k
    requires TailSteps(t, k, withAlpha, c3, alpha, rp)
    ensures TailSteps(text, tk, withAlpha, tc3, talpha, trp)
    ensures talpha.value == alpha.value && trp == i + rp
  {
    if withAlpha {
      tc3 := PunctIn(text, t, i, k, tk, ',', c3);
      talpha, trp := GroupPunctIn(text, t, i, c3, tc3, DigitOrDot, alpha, ')', rp);
    } else {
      trp := PunctIn(text, t, i, k, tk, ')', rp);
      tc3, talpha := tk, alpha;
    }
  }

  /** The steps of `ChannelGroups` that succeed. */
  lemma ChannelGroupsSplit(t: string, k: nat) returns (red: Capture, c1: nat, green: Capture, c2: nat, blue: Capture)
    requires k <= |t| && ChannelGroups(t, k).Some?
    ensures ChannelSteps(t, k, red, c1, green, c2, blue)
    ensures ChannelGroups(t, k).value == Triple(red.value, green.value, blue.value, blue.end)
  {
    red := Group(t, k, Digit).value;
    c1 := Punct(t, red.end, ',').value;
    green := Group(t, c1, Digit).value;
    c2 := Punct(t, green.end, ',').value;
    blue := Group(t, c2, Digit).value;
  }

  /** The steps of `Tail` that succeed. */
  lemma TailSplit(t: string, k: nat, withAlpha: bool, tail: (Option<string>, nat)) returns (c3: nat, alpha: Capture)
    requires k <= |t| && Tail(t, k, withAlpha) == Some(tail)
    ensures TailSteps(t, k, withAlpha, c3, alpha, tail.1) && tail.0 == AlphaOf(withAlpha, alpha)
  {
    if withAlpha {
      c3 := Punct(t, k, ',').value;
      alpha := Group(t, c3, DigitOrDot).value;
    } else {
      c3, alpha := k, Capture("", k);
    }
  }

  /** Every step of a functional match of `t` from its start. */
  lemma FunctionalSteps(t: string, withAlpha: bool)
    returns (lp: nat, red: Capture, c1: nat, green: Capture, c2: nat, blue: Capture, c3: nat, alpha: Capture, rp: nat)
    requires 0 < |t| && FunctionalAt(t, 0, withAlpha).Some?
    ensures HeadSteps(t, 0, Keyword(withAlpha), lp)
    ensures ChannelSteps(t, lp, red, c1, green, c2, blue) && blue.end < |t|
    ensures TailSteps(t, blue.end, withAlpha, c3, alpha, rp)
  {
    var x, tail;
    lp, x, tail := FunctionalAtSplit(t, 0, withAlpha);
    red, c1, green, c2, blue := ChannelGroupsSplit(t, lp);
    c3, alpha := TailSplit(t, x.end, withAlpha, tail);
    rp := tail.1;
  }

  /** `FunctionalAt` assembled from the results of all its steps. */
  lemma FunctionalAtFromSteps(text: string, i: nat, withAlpha: bool, lp: nat, red: Capture, c1: nat, green: Capture,
                              c2: nat, blue: Capture, c3: nat, alpha: Capture, rp: nat)
    requires i < |text| && HeadSteps(text, i, Keyword(withAlpha), lp)
    requires ChannelSteps(text, lp, red, c1, green, c2, blue)
    requires TailSteps(text, blue.end, withAlpha, c3, alpha, rp)
    ensures var h := FunctionalAt(text, i, withAlpha);
      && h.Some? && h.value.RgbHit? && h.value.len == rp - i
      && h.value.channels == Channels(red.value, green.value, blue.value, AlphaOf(withAlpha, alpha))
  {
    ChannelGroupsParts(text, lp, c1, c2, red.value, green.value, blue.value, blue.end);
    assert Tail(text, blue.end, withAlpha) == Some((AlphaOf(withAlpha, alpha), rp));
    FunctionalAtParts(text, i, withAlpha, lp, red.value, green.value, blue.value, blue.end, (AlphaOf(withAlpha, alpha), rp));
  }

  /** An `rgb`/`rgba` match depends only on the characters it covers: a
      text `t` that the pattern matches from its start is matched the same
      way wherever it stands inside a longer text, whatever comes before
      or after it. */
  lemma FunctionalAtIn(text: string, t: string, i: nat, withAlpha: bool)
    requires PlacedAt(text, t, i) && 0 < |t| && FunctionalAt(t, 0, withAlpha).Some?
    ensures i < |text| && FunctionalAt(text, i, withAlpha) == FunctionalAt(t, 0, withAlpha)
  {
    var lp, red, c1, green, c2, blue, c3, alpha, rp := FunctionalSteps(t, withAlpha);
    var tlp := HeadIn(text, t, i, Keyword(withAlpha), lp);
    var tred, tc1, tgreen, tc2, tblue := ChannelStepsIn(text, t, i, lp, tlp, red, c1, green, c2, blue);
    var tc3, talpha, trp := TailStepsIn(text, t, i, blue.end, tblue.end, withAlpha, c3, alpha, rp);
    FunctionalAtFromSteps(t, 0, withAlpha, lp, red, c1, green, c2, blue, c3, alpha, rp);
    FunctionalAtFromSteps(text, i, withAlpha, tlp, tred, tc1, tgreen, tc2, tblue, tc3, talpha, trp);
  }

  /** Completeness of the functional patterns inside any text: a literal
      laid out as `FunctionalTextMatches` allows, standing at offset `i` of
      a longer text, is matched there whole with exactly its captures. */
  lemma FunctionalTextMatchesIn(text: string, i: nat, kw: string, sp: seq<string>, ch: Channels, withAlpha: bool)
    requires |sp| == 9 && forall n :: 0 <= n < 9 ==> Spaces(sp[n])
    requires SpellsKeyword(kw, Keyword(withAlpha))
    requires WellFormed(ch) && (ch.alpha.Some? <==> withAlpha)
    requires PlacedAt(text, Concat(FunctionalTokens(kw, sp, ch)), i)
    ensures var t := Concat(FunctionalTokens(kw, sp, ch));
      && i < |text|
      && MatchAt(if withAlpha then RgbaPattern else RgbPattern, text, i) == Some(RgbHit(|t|, ch))
  {
    FunctionalTextMatches(kw, sp, ch, withAlpha);
    FunctionalAtIn(text, Concat(FunctionalTokens(kw, sp, ch)), i, withAlpha);
  }

  /** After `rgb`, an `a` is neither white space nor `(`. */
  lemma NoParenAtA(text: string, k: nat)
    requires k < |text| && LowerAscii(text[k]) == 'a'
    ensures Punct(text, k, '(').None?
  {
    RunEndIs(text, k, Space, k);
  }

  /** `rgb(` never matches where `rgba(` does: after `rgb` the `rgb`
      pattern needs white space or `(`, and finds `a`. */
  lemma RgbNotAtRgba(text: string, i: nat)
    requires i < |text| && MatchAt(RgbaPattern, text, i).Some?
    ensures MatchAt(RgbPattern, text, i).None?
  {
    assert KeywordAt(text, i, Keyword(true));
    assert LowerAscii(text[i + 3]) == Keyword(true)[3] == 'a';
    NoParenAtA(text, i + 3);
  }
  /** What a match of each pattern starts with: `#` for hex, `r` or `R`
      for the functional ones. */
  lemma MatchStart(p: Pattern, text: string, i: nat)
    requires i < |text| && MatchAt(p, text, i).Some?
    ensures p == HexPattern <==> text[i] == '#'
    ensures p != HexPattern <==> LowerAscii(text[i]) == 'r'
  {
    if p != HexPattern {
      assert KeywordAt(text, i, Keyword(p == RgbaPattern));
      assert LowerAscii(text[i]) == Keyword(p == RgbaPattern)[0];
    }
  }

  /** At most one of the three patterns matches at any position: a hex
      match starts with `#`, a functional one with `r` or `R`, and `rgb(`
      never matches where `rgba(` does. */
  lemma OnePatternAt(p: Pattern, q: Pattern, text: string, i: nat)
    requires i < |text| && MatchAt(p, text, i).Some? && MatchAt(q, text, i).Some?
    ensures p == q
  {
    MatchStart(p, text, i);
    MatchStart(q, text, i);
    if p == RgbaPattern && q == RgbPattern {
      RgbNotAtRgba(text, i);
      assert false;
    } else if p == RgbPattern && q == RgbaPattern {
      RgbNotAtRgba(text, i);
      assert false;
    }
  }



  /** Parse/print agreement: the `rgb(...)` text `rgbaToCss` prints for an
      opaque in-range colour is matched whole by the `rgb` pattern, and
      `parseRgbRgba` reads the same colour back. */
  lemma OpaqueCssRoundTrip(c: Rgba, fmt: real -> string)
    requires InGamut(c) && c.a == 1.0
    ensures var css := RgbaToCss(c, fmt);
      && MatchAt(RgbPattern, css, 0)
         == Some(RgbHit(|css|, Channels(DecimalText(c.r), DecimalText(c.g), DecimalText(c.b), None)))
      && ParseRgbRgba(Channels(DecimalText(c.r), DecimalText(c.g), DecimalText(c.b), None)) == Some(c)
  {
    var css := RgbaToCss(c, fmt);
    PrintedRgbLayout(css, DecimalText(c.r), DecimalText(c.g), DecimalText(c.b));
    RgbLayoutMatches(css, DecimalText(c.r), DecimalText(c.g), DecimalText(c.b));
  }
}

=== FILE: scanner.dfy ===
/** `findAllColors`: three global-regex scans over the text, a filter that
    keeps the hits whose colour parses, and a sort by start offset. */
module Scanner {
  import opened Wrappers
  import opened Chars
  import opened Color
  import opened Patterns

  /** A colour occurrence: the literal text, where it starts, its length. */
  datatype ColorMatch = ColorMatch(color: string, startIndex: nat, length: nat)

  /** A raw hit of a scan: `match.index` and what matched there. */
  datatype RawHit = RawHit(start: nat, hit: Hit)

  /* ---------------- the exec loop over a table of matches ---------------- */

  /** A table of what a pattern matches at each position: every match is
      non-empty and ends inside the text. */
  predicate Fits(tbl: seq<Option<Hit>>) {
    forall i :: 0 <= i < |tbl| && tbl[i].Some? ==> 0 < tbl[i].value.len && i + tbl[i].value.len <= |tbl|
  }

  /** No match begins strictly inside another match. */
  predicate NoneInside(tbl: seq<Option<Hit>>) {
    forall i, j :: 0 <= i < j < |tbl| && tbl[i].Some? && j < i + tbl[i].value.len ==> tbl[j].None?
  }

  /** The `exec` loop of a global regex whose `lastIndex` is `from`: the
      leftmost match at or after the cursor is reported and the cursor
      moves to its end; when nothing matches the loop stops. */
  function ScanTable(tbl: seq<Option<Hit>>, from: nat): (hits: seq<RawHit>)
    requires Fits(tbl) && from <= |tbl|
    ensures forall k :: 0 <= k < |hits| ==>
      && from <= hits[k].start < |tbl|
      && tbl[hits[k].start] == Some(hits[k].hit)
    ensures forall j, k :: 0 <= j < k < |hits| ==> hits[j].start + hits[j].hit.len <= hits[k].start
    decreases |tbl| - from
  {
    if from == |tbl| then []
    else
      match tbl[from]
      case Some(h) => [RawHit(from, h)] + ScanTable(tbl, from + h.len)
      case None => ScanTable(tbl, from + 1)
  }

  /** Indexing past the head of `[h] + tail`; a lemma of its own so that the
      scan proofs that use it do not unfold the concatenation themselves. */
  lemma ConsIndex(hits: seq<RawHit>, h: RawHit, tail: seq<RawHit>, k: nat)
    requires hits == [h] + tail && k < |tail|
    ensures hits[k + 1] == tail[k]
  {
  }

  /** Every match at or after the cursor is reported; `k` is its index among
      the hits. */
  lemma {:induction false} ScanTableFindsEveryMatch(tbl: seq<Option<Hit>>, from: nat, i: nat) returns (k: nat)
    requires Fits(tbl) && NoneInside(tbl)
    requires from <= i < |tbl| && tbl[i].Some?
    ensures k < |ScanTable(tbl, from)| && ScanTable(tbl, from)[k].start == i
    decreases |tbl| - from
  {
    if tbl[from].None? {
      k := ScanTableFindsEveryMatch(tbl, from + 1, i);
    } else if i == from {
      k := 0;
    } else {
      var h := tbl[from].value;
      if i >= from + h.len {
        var k' := ScanTableFindsEveryMatch(tbl, from + h.len, i);
        ConsIndex(ScanTable(tbl, from), RawHit(from, h), ScanTable(tbl, from + h.len), k');
        k := k' + 1;
      }
    }
  }

  /* ---------------- the three scans ---------------- */

  /** The first `n` answers of a cell function, in order. */
  function Tabulate(f: nat -> Option<Hit>, n: nat): (tbl: seq<Option<Hit>>)
    ensures |tbl| == n
  {
    if n == 0 then [] else Tabulate(f, n - 1) + [f(n - 1)]
  }

  lemma AppendIndex(a: seq<Option<Hit>>, x: Option<Hit>, i: nat)
    requires i <= |a|
    ensures (a + [x])[i] == if i < |a| then a[i] else x
  {
  }

  /** Each entry of a tabulation is the cell at that offset. */
  lemma {:induction false} TabulateAt(f: nat -> Option<Hit>, n: nat, i: nat)
    requires i < n
    ensures Tabulate(f, n)[i] == f(i)
  {
    AppendIndex(Tabulate(f, n - 1), f(n - 1), i);
    if i < n - 1 {
      TabulateAt(f, n - 1, i);
    }
  }

  /** What pattern `p` matches when the regex engine's cursor is put at
      offset `i`; nothing past the text. */
  function Cells(p: Pattern, text: string): nat -> Option<Hit> {
    (i: nat) => if i < |text| then MatchAt(p, text, i) else None
  }

  /** The answers for every offset of the text. */
  function Table(p: Pattern, text: string): (tbl: seq<Option<Hit>>)
    ensures |tbl| == |text|
  {
    Tabulate(Cells(p, text), |text|)
  }

  lemma MatchTableAt(p: Pattern, text: string, i: nat)
    requires i < |text|
    ensures Table(p, text)[i] == MatchAt(p, text, i)
  {
    TabulateAt(Cells(p, text), |text|, i);
  }

  /** A regex match never runs past the text, and no match of any of the
      three patterns begins inside another: every match starts at `#`, `r`
      or `R` and contains none of them after its first character. */
  lemma TableIsScannable(p: Pattern, text: string)
    ensures Fits(Table(p, text)) && NoneInside(Table(p, text))
  {
    var tbl := Table(p, text);
    forall i | 0 <= i < |tbl| && tbl[i].Some?
      ensures 0 < tbl[i].value.len && i + tbl[i].value.len <= |tbl|
    {
      MatchTableAt(p, text, i);
    }
    forall i, j | 0 <= i < j < |tbl| && tbl[i].Some? && j < i + tbl[i].value.len
      ensures tbl[j].None?
    {
      MatchTableAt(p, text, i);
      MatchTableAt(p, text, j);
      assert !IsStarter(text[j]);
    }
  }

  /** The hits `findAllColors` collects for pattern `p`, in scan order. */
  function Scan(p: Pattern, text: string): (hits: seq<RawHit>)
    ensures forall k :: 0 <= k < |hits| ==> hits[k].start + hits[k].hit.len <= |text|
    ensures forall j, k :: 0 <= j < k < |hits| ==> hits[j].start + hits[j].hit.len <= hits[k].start
  {
    TableIsScannable(p, text);
    ScanTable(Table(p, text), 0)
  }

  /** Every reported hit is what the pattern matches at its start. */
  lemma ScanHitsMatch(p: Pattern, text: string, k: nat)
    requires k < |Scan(p, text)|
    ensures Scan(p, text)[k].start < |text|
    ensures MatchAt(p, text, Scan(p, text)[k].start) == Some(Scan(p, text)[k].hit)
  {
    TableIsScannable(p, text);
    MatchTableAt(p, text, Scan(p, text)[k].start);
  }

  /** Every position where the pattern matches is reported. */
  lemma ScanFindsEveryMatch(p: Pattern, text: string, i: nat) returns (k: nat)
    requires i < |text| && MatchAt(p, text, i).Some?
    ensures k < |Scan(p, text)| && Scan(p, text)[k].start == i
  {
    TableIsScannable(p, text);
    MatchTableAt(p, text, i);
    k := ScanTableFindsEveryMatch(Table(p, text), 0, i);
  }

  /** The starts of a scan are exactly the positions where the pattern
      matches. */
  lemma ScanIsExact(p: Pattern, text: string, i: nat)
    requires i < |text|
    ensures (exists k :: 0 <= k < |Scan(p, text)| && Scan(p, text)[k].start == i)
        <==> MatchAt(p, text, i).Some?
  {
    if MatchAt(p, text, i).Some? {
      var k := ScanFindsEveryMatch(p, text, i);
    }
    forall k | 0 <= k < |Scan(p, text)| && Scan(p, text)[k].start == i
      ensures MatchAt(p, text, i).Some?
    {
      ScanHitsMatch(p, text, k);
    }
  }

  /** The hex scan reports exactly the positions where the hex regex, run
      with its backtracking order, matches; a `#` followed by a maximal run
      of 5 or 7 hex digits is never reported. */
  lemma HexScanIsRegex(text: string, i: nat)
    requires i < |text|
    ensures (exists k :: 0 <= k < |Scan(HexPattern, text)| && Scan(HexPattern, text)[k].start == i)
        <==> HexRegexAt(text, i).Some?
    ensures var n := RunEnd(text, i + 1, Hex) - (i + 1);
      n == 5 || n == 7 ==> forall k :: 0 <= k < |Scan(HexPattern, text)| ==> Scan(HexPattern, text)[k].start != i
  {
    ScanIsExact(HexPattern, text, i);
    HexRuleIsRegex(text, i);
  }

  /* ---------------- the filter ---------------- */

  /** Pattern `p` matches at `i` with a hit of length `len` that parses. */
  predicate FoundAt(p: Pattern, text: string, i: nat, len: nat, guard: Guard) {
    && i < |text|
    && MatchAt(p, text, i).Some?
    && MatchAt(p, text, i).value.len == len
    && Parses(text, i, MatchAt(p, text, i).value, guard)
  }

  /** Some pattern matches at `i` with length `len` and parses. */
  predicate IsColorAt(text: string, i: nat, len: nat, guard: Guard) {
    FoundAt(HexPattern, text, i, len, guard) || FoundAt(RgbPattern, text, i, len, guard) || FoundAt(RgbaPattern, text, i, len, guard)
  }

  /** The `ColorMatch` pushed for a raw hit. */
  function ToMatch(text: string, rh: RawHit): (m: ColorMatch)
    requires rh.start + rh.hit.len <= |text|
    ensures m.startIndex == rh.start && m.length == rh.hit.len
    ensures m.color == Literal(text, rh.start, rh.hit)
  {
    ColorMatch(text[rh.start..rh.start + rh.hit.len], rh.start, rh.hit.len)
  }

  /** A raw hit that lies in the text and whose colour parses. */
  predicate KeepsHit(text: string, rh: RawHit, guard: Guard) {
    && rh.start + rh.hit.len <= |text|
    && (rh.hit.RgbHit? ==> WellFormed(rh.hit.channels))
    && Parses(text, rh.start, rh.hit, guard)
  }

  /** Each hit ends before the next one starts, as the hits of a scan do. */
  predicate HitsApart(hits: seq<RawHit>) {
    forall j, k :: 0 <= j < k < |hits| ==> hits[j].start + hits[j].hit.len <= hits[k].start
  }

  /** Each match ends before the next one starts. */
  predicate MatchesApart(ms: seq<ColorMatch>) {
    forall j, k :: 0 <= j < k < |ms| ==> ms[j].startIndex + ms[j].length <= ms[k].startIndex
  }

  /** The hits that parse, as `ColorMatch`es in scan order; every hit that
      parses contributes its match. */
  function Kept(text: string, hits: seq<RawHit>, guard: Guard): (ms: seq<ColorMatch>)
    ensures |ms| <= |hits|
    ensures forall k :: 0 <= k < |hits| && KeepsHit(text, hits[k], guard) ==> ToMatch(text, hits[k]) in ms
  {
    if hits == [] then []
    else
      var rest := Kept(text, hits[1..], guard);
      assert forall k :: 1 <= k < |hits| ==> hits[k] == hits[1..][k - 1];
      if KeepsHit(text, hits[0], guard) then [ToMatch(text, hits[0])] + rest else rest
  }

  /** Each index moved one place on. */
  function Successors(idx: seq<nat>): (up: seq<nat>)
    ensures |up| == |idx| && forall j :: 0 <= j < |idx| ==> up[j] == idx[j] + 1
  {
    if idx == [] then [] else [idx[0] + 1] + Successors(idx[1..])
  }

  lemma ConsAt(s: seq<nat>, x: nat, tail: seq<nat>, j: nat)
    requires s == [x] + tail && 1 <= j < |s|
    ensures s[j] == tail[j - 1]
  {
  }

  /** The indices of the hits that parse, in order. */
  function KeptIdx(text: string, hits: seq<RawHit>, guard: Guard): seq<nat> {
    if hits == [] then []
    else
      var up := Successors(KeptIdx(text, hits[1..], guard));
      if KeepsHit(text, hits[0], guard) then [0] + up else up
  }

  lemma {:induction false} KeptIdxLength(text: string, hits: seq<RawHit>, guard: Guard)
    ensures |KeptIdx(text, hits, guard)| == |Kept(text, hits, guard)|
  {
    if hits != [] {
      KeptIdxLength(text, hits[1..], guard);
    }
  }

  /** Indices that strictly increase. */
  predicate Increasing(idx: seq<nat>) {
    forall j, k :: 0 <= j < k < |idx| ==> idx[j] < idx[k]
  }

  lemma {:induction false} KeptIdxIncreasing(text: string, hits: seq<RawHit>, guard: Guard)
    ensures Increasing(KeptIdx(text, hits, guard))
  {
    if hits != [] {
      KeptIdxIncreasing(text, hits[1..], guard);
      var rest := KeptIdx(text, hits[1..], guard);
      var up := Successors(rest);
      forall j, k | 0 <= j < k < |up| ensures 0 < up[j] < up[k] {
        assert rest[j] < rest[k];
      }
      if KeepsHit(text, hits[0], guard) {
        var idx := [0] + up;
        forall j | 1 <= j < |idx| ensures idx[j] == up[j - 1] {
          ConsAt(idx, 0, up, j);
        }
      }
    }
  }

  /** A hit that lies in the text. */
  predicate InText(text: string, rh: RawHit) {
    rh.start + rh.hit.len <= |text|
  }

  lemma {:induction false} KeptIdxAt(text: string, hits: seq<RawHit>, guard: Guard)
    ensures |KeptIdx(text, hits, guard)| == |Kept(text, hits, guard)|
    ensures var idx := KeptIdx(text, hits, guard);
      forall j :: 0 <= j < |idx| ==>
        && idx[j] < |hits| && InText(text, hits[idx[j]])
        && Kept(text, hits, guard)[j] == ToMatch(text, hits[idx[j]])
  {
    if hits != [] {
      var tail := hits[1..];
      KeptIdxAt(text, tail, guard);
      var rest, kt := KeptIdx(text, tail, guard), Kept(text, tail, guard);
      var up := Successors(rest);
      forall j | 0 <= j < |rest| ensures hits[up[j]] == tail[rest[j]] {
      }
      if KeepsHit(text, hits[0], guard) {
        KeptIdxCons(text, hits, up, kt);
      } else {
        assert KeptIdx(text, hits, guard) == up && Kept(text, hits, guard) == kt;
      }
    }
  }

  /** The recursive step of `KeptIdxAt` when the head is kept. */
  lemma KeptIdxCons(text: string, hits: seq<RawHit>, up: seq<nat>, kt: seq<ColorMatch>)
    requires |hits| > 0 && InText(text, hits[0]) && |up| == |kt|
    requires forall j :: 0 <= j < |up| ==>
      && up[j] < |hits| && InText(text, hits[up[j]]) && kt[j] == ToMatch(text, hits[up[j]])
    ensures var idx, ms := [0] + up, [ToMatch(text, hits[0])] + kt;
      forall j :: 0 <= j < |idx| ==>
        && idx[j] < |hits| && InText(text, hits[idx[j]]) && ms[j] == ToMatch(text, hits[idx[j]])
  {
    var idx, ms := [0] + up, [ToMatch(text, hits[0])] + kt;
    forall j | 1 <= j < |idx| ensures idx[j] == up[j - 1] && ms[j] == kt[j - 1] {
    }
  }

  /** The kept indices are exactly those of the hits that parse. */
  lemma {:induction false} KeptIdxExact(text: string, hits: seq<RawHit>, guard: Guard)
    ensures forall k :: 0 <= k < |hits| ==> (k in KeptIdx(text, hits, guard) <==> KeepsHit(text, hits[k], guard))
  {
    if hits != [] {
      var tail := hits[1..];
      KeptIdxExact(text, tail, guard);
      var rest := KeptIdx(text, tail, guard);
      var up := Successors(rest);
      forall k | 1 <= k < |hits| ensures k in up <==> KeepsHit(text, hits[k], guard) {
        assert hits[k] == tail[k - 1];
        if k in up {
          var j :| 0 <= j < |up| && up[j] == k;
          assert rest[j] == k - 1;
        }
        if KeepsHit(text, hits[k], guard) {
          var j :| 0 <= j < |rest| && rest[j] == k - 1;
          assert up[j] == k;
        }
      }
      forall j | 0 <= j < |up| ensures up[j] != 0 {
      }
    }
  }

  /** `Kept` is an order-preserving filter: its `j`-th match is that of hit
      `idx[j]`, the indices increase, and they are exactly the indices of
      the hits that parse. */
  lemma KeptIndices(text: string, hits: seq<RawHit>, guard: Guard) returns (idx: seq<nat>)
    ensures |idx| == |Kept(text, hits, guard)|
    ensures forall j :: 0 <= j < |idx| ==>
      && idx[j] < |hits| && KeepsHit(text, hits[idx[j]], guard)
      && Kept(text, hits, guard)[j] == ToMatch(text, hits[idx[j]])
    ensures Increasing(idx)
    ensures forall k :: 0 <= k < |hits| ==> (k in idx <==> KeepsHit(text, hits[k], guard))
  {
    idx := KeptIdx(text, hits, guard);
    KeptIdxAt(text, hits, guard);
    KeptIdxIncreasing(text, hits, guard);
    KeptIdxExact(text, hits, guard);
  }

  /** Hits that lie apart give kept matches that lie apart, in the same
      order: no match is kept twice and none moves. */
  lemma KeptApart(text: string, hits: seq<RawHit>, guard: Guard)
    requires HitsApart(hits)
    ensures MatchesApart(Kept(text, hits, guard))
  {
    var ms := Kept(text, hits, guard);
    var idx := KeptIndices(text, hits, guard);
    forall j, k | 0 <= j < k < |ms| ensures ms[j].startIndex + ms[j].length <= ms[k].startIndex {
      assert idx[j] < idx[k];
      assert hits[idx[j]].start + hits[idx[j]].hit.len <= hits[idx[k]].start;
    }
  }

  /** Conversely, every kept match comes from a hit that parses; `k` is
      that hit's index. */
  lemma {:induction false} KeptSource(text: string, hits: seq<RawHit>, m: ColorMatch, guard: Guard) returns (k: nat)
    requires m in Kept(text, hits, guard)
    ensures k < |hits| && KeepsHit(text, hits[k], guard)
    ensures m.startIndex == hits[k].start && m.length == hits[k].hit.len
    ensures m.color == text[m.startIndex..m.startIndex + m.length]
  {
    if KeepsHit(text, hits[0], guard) && m == ToMatch(text, hits[0]) {
      k := 0;
    } else {
      var k' := KeptSource(text, hits[1..], m, guard);
      k := k' + 1;
    }
  }

  /** The kept hits of pattern `p` over the whole text. */
  function KeptOf(p: Pattern, text: string, guard: Guard): seq<ColorMatch> {
    Kept(text, Scan(p, text), guard)
  }

  /** A hit that pattern `p` reports at `i` and the filter keeps is a
      parsing match of `p`. */
  lemma KeptHitIsFound(p: Pattern, text: string, i: nat, h: Hit, guard: Guard)
    requires i < |text| && MatchAt(p, text, i) == Some(h) && KeepsHit(text, RawHit(i, h), guard)
    ensures FoundAt(p, text, i, h.len, guard)
  {
  }

  /** A kept hit of pattern `p` is a parsing match of `p`, and its colour
      is the text it covers. */
  lemma KeptOfSound(p: Pattern, text: string, m: ColorMatch, guard: Guard)
    requires m in KeptOf(p, text, guard)
    ensures 0 < m.length && m.startIndex + m.length <= |text|
    ensures m.color == text[m.startIndex..m.startIndex + m.length]
    ensures FoundAt(p, text, m.startIndex, m.length, guard)
  {
    var hits := Scan(p, text);
    var k := KeptSource(text, hits, m, guard);
    var rh := hits[k];
    ScanHitsMatch(p, text, k);
    KeptHitIsFound(p, text, rh.start, rh.hit, guard);
  }

  /** A hit that pattern `p` reports at a parsing match is kept. */
  lemma FoundHitIsKept(p: Pattern, text: string, i: nat, len: nat, rh: RawHit, guard: Guard)
    requires FoundAt(p, text, i, len, guard)
    requires rh.start == i && MatchAt(p, text, i) == Some(rh.hit)
    ensures rh.hit.len == len && KeepsHit(text, rh, guard)
  {
  }

  /** A kept hit's `ColorMatch` is among the kept matches. */
  lemma KeptContains(text: string, hits: seq<RawHit>, k: nat, i: nat, len: nat, guard: Guard)
    requires k < |hits| && KeepsHit(text, hits[k], guard)
    requires hits[k].start == i && hits[k].hit.len == len
    ensures i + len <= |text| && ColorMatch(text[i..i + len], i, len) in Kept(text, hits, guard)
  {
    var m := ToMatch(text, hits[k]);
    assert m == ColorMatch(text[i..i + len], i, len);
    var kept := Kept(text, hits, guard);
    assert m in kept;
  }

  /** The index of the scan hit at a parsing match of `p`, which the filter
      keeps. */
  lemma FoundHitIndex(p: Pattern, text: string, i: nat, len: nat, guard: Guard) returns (k: nat)
    requires FoundAt(p, text, i, len, guard)
    ensures k < |Scan(p, text)| && KeepsHit(text, Scan(p, text)[k], guard)
    ensures Scan(p, text)[k].start == i && Scan(p, text)[k].hit.len == len
  {
    var hits := Scan(p, text);
    k := ScanFindsEveryMatch(p, text, i);
    ScanHitsMatch(p, text, k);
    FoundHitIsKept(p, text, i, len, hits[k], guard);
  }

  /** A parsing match of `p` is among its kept hits. */
  lemma KeptOfComplete(p: Pattern, text: string, i: nat, len: nat, guard: Guard)
    requires FoundAt(p, text, i, len, guard)
    ensures i + len <= |text| && ColorMatch(text[i..i + len], i, len) in KeptOf(p, text, guard)
  {
    var k := FoundHitIndex(p, text, i, len, guard);
    KeptContains(text, Scan(p, text), k, i, len, guard);
  }

  /* ---------------- the sort ---------------- */

  predicate SortedByStart(ms: seq<ColorMatch>) {
    forall j, k :: 0 <= j < k < |ms| ==> ms[j].startIndex <= ms[k].startIndex
  }

  /** Stable insertion of `m` before the first element that starts later. */
  function Insert(m: ColorMatch, ms: seq<ColorMatch>): (r: seq<ColorMatch>)
    requires SortedByStart(ms)
    ensures SortedByStart(r)
    ensures multiset(r) == multiset(ms) + multiset{m}
    ensures forall x :: x in r ==> x in ms || x == m
  {
    if ms == [] || m.startIndex <= ms[0].startIndex then
      [m] + ms
    else
      var rest := Insert(m, ms[1..]);
      InsertBehindHead(m, ms, rest);
      [ms[0]] + rest
  }

  /** The recursive step of `Insert`: the head stays in front. */
  lemma InsertBehindHead(m: ColorMatch, ms: seq<ColorMatch>, rest: seq<ColorMatch>)
    requires SortedByStart(ms) && |ms| > 0 && ms[0].startIndex < m.startIndex
    requires SortedByStart(rest)
    requires multiset(rest) == multiset(ms[1..]) + multiset{m}
    requires forall x :: x in rest ==> x in ms[1..] || x == m
    ensures SortedByStart([ms[0]] + rest)
    ensures multiset([ms[0]] + rest) == multiset(ms) + multiset{m}
    ensures forall x :: x in [ms[0]] + rest ==> x in ms || x == m
  {
    var r := [ms[0]] + rest;
    assert ms == [ms[0]] + ms[1..];
    forall j, k | 0 <= j < k < |r| ensures r[j].startIndex <= r[k].startIndex {
      assert r[k] == rest[k - 1];
      if j == 0 {
        assert r[k] in rest;
      } else {
        assert r[j] == rest[j - 1];
      }
    }
  }

  /** `matches.sort((a, b) => a.startIndex - b.startIndex)`. */
  function SortByStart(ms: seq<ColorMatch>): (r: seq<ColorMatch>)
    ensures SortedByStart(r)
    ensures multiset(r) == multiset(ms)
  {
    if ms == [] then []
    else
      assert ms == [ms[0]] + ms[1..];
      Insert(ms[0], SortByStart(ms[1..]))
  }

  /* ---------------- findAllColors ---------------- */

  /** The kept hits of the three scans, in the order they are pushed. */
  function AllKept(text: string, guard: Guard): seq<ColorMatch> {
    KeptOf(HexPattern, text, guard) + KeptOf(RgbPattern, text, guard) + KeptOf(RgbaPattern, text, guard)
  }

  /** `findAllColors`: the kept hits of the three scans, sorted by offset. */
  function FindAllColors(text: string, guard: Guard): (ms: seq<ColorMatch>)
    ensures SortedByStart(ms)
    ensures multiset(ms) == multiset(AllKept(text, guard))
  {
    SortByStart(AllKept(text, guard))
  }

  /** Every match of `ms` spells its literal inside the text and is a
      parsing colour match there. */
  predicate AllColorMatches(text: string, ms: seq<ColorMatch>, guard: Guard) {
    forall m | m in ms ::
      && 0 < m.length && m.startIndex + m.length <= |text|
      && m.color == text[m.startIndex..m.startIndex + m.length]
      && IsColorAt(text, m.startIndex, m.length, guard)
  }

  /** `FindAllColorsSound` for the whole result at once. */
  lemma FindAllColorsAllSound(text: string, guard: Guard)
    ensures AllColorMatches(text, FindAllColors(text, guard), guard)
  {
    forall m | m in FindAllColors(text, guard)
      ensures 0 < m.length && m.startIndex + m.length <= |text|
      ensures m.color == text[m.startIndex..m.startIndex + m.length]
      ensures IsColorAt(text, m.startIndex, m.length, guard)
    {
      FindAllColorsSound(text, m, guard);
    }
  }

  /** Every reported match covers its literal and is a parsing colour match
      of one of the three patterns. */
  lemma FindAllColorsSound(text: string, m: ColorMatch, guard: Guard)
    requires m in FindAllColors(text, guard)
    ensures 0 < m.length && m.startIndex + m.length <= |text|
    ensures m.color == text[m.startIndex..m.startIndex + m.length]
    ensures IsColorAt(text, m.startIndex, m.length, guard)
  {
    assert m in multiset(AllKept(text, guard));
    if m in KeptOf(HexPattern, text, guard) {
      KeptOfSound(HexPattern, text, m, guard);
    } else if m in KeptOf(RgbPattern, text, guard) {
      KeptOfSound(RgbPattern, text, m, guard);
    } else {
      KeptOfSound(RgbaPattern, text, m, guard);
    }
  }

  /* ---------------- the two readings of the range check ---------------- */

  /** The `rgba` pattern matches at `i` with length `len`, in range, with an
      alpha text that is NaN: the hits only the as-written check keeps. */
  predicate NaNAlphaAt(text: string, i: nat, len: nat) {
    && i < |text|
    && MatchAt(RgbaPattern, text, i).Some?
    && MatchAt(RgbaPattern, text, i).value.len == len
    && NaNAlpha(MatchAt(RgbaPattern, text, i).value.channels)
  }

  /** At one position, the as-written check accepts what the corrected one
      does, plus the NaN-alpha `rgba` hits. */
  lemma ColorAtReadings(text: string, i: nat, len: nat)
    ensures IsColorAt(text, i, len, AsWritten) <==> IsColorAt(text, i, len, Corrected) || NaNAlphaAt(text, i, len)
  {
    FoundAtReadings(HexPattern, text, i, len);
    FoundAtReadings(RgbPattern, text, i, len);
    FoundAtReadings(RgbaPattern, text, i, len);
  }

  /** `ColorAtReadings` for one pattern; only an `rgba` hit can carry a NaN
      alpha, since a missing alpha reads as 1. */
  lemma FoundAtReadings(p: Pattern, text: string, i: nat, len: nat)
    ensures FoundAt(p, text, i, len, AsWritten) <==>
      FoundAt(p, text, i, len, Corrected) || (p == RgbaPattern && NaNAlphaAt(text, i, len))
  {
    if i < |text| && MatchAt(p, text, i).Some? && MatchAt(p, text, i).value.RgbHit? {
      var ch := MatchAt(p, text, i).value.channels;
      assert RgbaKeptAsWritten(ch) <==> ParseRgbRgba(ch).Some? || NaNAlpha(ch);
    }
  }

  /** Every parsing match of any pattern is reported, under either check. */
  lemma ReportedWhereColor(text: string, i: nat, len: nat, guard: Guard)
    requires IsColorAt(text, i, len, guard)
    ensures i + len <= |text| && ColorMatch(text[i..i + len], i, len) in FindAllColors(text, guard)
  {
    if FoundAt(HexPattern, text, i, len, guard) {
      FindAllColorsComplete(text, HexPattern, i, len, guard);
    } else if FoundAt(RgbPattern, text, i, len, guard) {
      FindAllColorsComplete(text, RgbPattern, i, len, guard);
    } else {
      FindAllColorsComplete(text, RgbaPattern, i, len, guard);
    }
  }

  /** A position the as-written check accepts is reported by the corrected
      reading or holds a NaN-alpha `rgba` hit. */
  lemma CorrectedOrNaN(text: string, i: nat, len: nat)
    requires IsColorAt(text, i, len, AsWritten)
    ensures i + len <= |text|
    ensures ColorMatch(text[i..i + len], i, len) in FindAllColors(text, Corrected) || NaNAlphaAt(text, i, len)
  {
    ColorAtReadings(text, i, len);
    if IsColorAt(text, i, len, Corrected) {
      ReportedWhereColor(text, i, len, Corrected);
    }
  }

  /** A position the corrected check accepts, or a NaN-alpha `rgba` hit,
      is reported by the source. */
  lemma AsWrittenAccepts(text: string, i: nat, len: nat)
    requires IsColorAt(text, i, len, Corrected) || NaNAlphaAt(text, i, len)
    ensures i + len <= |text| && ColorMatch(text[i..i + len], i, len) in FindAllColors(text, AsWritten)
  {
    ColorAtReadings(text, i, len);
    ReportedWhereColor(text, i, len, AsWritten);
  }

  /** What the source reports, the corrected reading reports too, unless it
      is a NaN-alpha `rgba` literal. */
  lemma AsWrittenReportsOnlyMore(text: string, m: ColorMatch)
    requires m in FindAllColors(text, AsWritten)
    ensures m.startIndex + m.length <= |text| && m.color == text[m.startIndex..m.startIndex + m.length]
    ensures m in FindAllColors(text, Corrected) || NaNAlphaAt(text, m.startIndex, m.length)
  {
    FindAllColorsSound(text, m, AsWritten);
    CorrectedOrNaNMatch(text, m);
  }

  /** `CorrectedOrNaN` for a match that spells its literal. */
  lemma CorrectedOrNaNMatch(text: string, m: ColorMatch)
    requires m.startIndex + m.length <= |text| && m.color == text[m.startIndex..m.startIndex + m.length]
    requires IsColorAt(text, m.startIndex, m.length, AsWritten)
    ensures m in FindAllColors(text, Corrected) || NaNAlphaAt(text, m.startIndex, m.length)
  {
    CorrectedOrNaN(text, m.startIndex, m.length);
  }

  /** What the corrected reading reports, the source reports too. */
  lemma CorrectedReportedAsWritten(text: string, m: ColorMatch)
    requires m in FindAllColors(text, Corrected)
    ensures m in FindAllColors(text, AsWritten)
  {
    FindAllColorsSound(text, m, Corrected);
    AsWrittenAcceptsMatch(text, m);
  }

  /** `AsWrittenAccepts` for a match that spells its literal. */
  lemma AsWrittenAcceptsMatch(text: string, m: ColorMatch)
    requires m.startIndex + m.length <= |text| && m.color == text[m.startIndex..m.startIndex + m.length]
    requires IsColorAt(text, m.startIndex, m.length, Corrected) || NaNAlphaAt(text, m.startIndex, m.length)
    ensures m in FindAllColors(text, AsWritten)
  {
    AsWrittenAccepts(text, m.startIndex, m.length);
  }

  /** What the source reports is what the corrected reading reports plus
      exactly the NaN-alpha `rgba` literals. */
  lemma AsWrittenReportsMore(text: string, m: ColorMatch)
    ensures m in FindAllColors(text, AsWritten) <==>
      || m in FindAllColors(text, Corrected)
      || (NaNAlphaAt(text, m.startIndex, m.length) && m.color == text[m.startIndex..m.startIndex + m.length])
  {
    if m in FindAllColors(text, AsWritten) {
      AsWrittenReportsOnlyMore(text, m);
    }
    if || m in FindAllColors(text, Corrected)
       || (NaNAlphaAt(text, m.startIndex, m.length) && m.color == text[m.startIndex..m.startIndex + m.length])
    {
      ReportedAsWrittenWhen(text, m);
    }
  }

  /** The converse half of `AsWrittenReportsMore`. */
  lemma ReportedAsWrittenWhen(text: string, m: ColorMatch)
    requires || m in FindAllColors(text, Corrected)
             || (NaNAlphaAt(text, m.startIndex, m.length) && m.color == text[m.startIndex..m.startIndex + m.length])
    ensures m in FindAllColors(text, AsWritten)
  {
    if m in FindAllColors(text, Corrected) {
      CorrectedReportedAsWritten(text, m);
    } else {
      AsWrittenAcceptsMatch(text, m);
    }
  }

  /** Four more tokens joined onto a known prefix; the tokens of
      `NaNAlphaTokens` are joined four at a time so that no proof context
      sees the whole chain. */
  lemma JoinFour(ps: seq<string>, k: nat, t: string)
    requires k + 4 <= |ps| && Concat(ps[..k]) == t
    ensures Concat(ps[..k + 4]) == t + ps[k] + ps[k + 1] + ps[k + 2] + ps[k + 3]
  {
    ConcatStep(ps, k);
    ConcatStep(ps, k + 1);
    ConcatStep(ps, k + 2);
    ConcatStep(ps, k + 3);
  }

  /** The tokens of `rgba(0,0,0,.)` join to that text. */
  lemma NaNAlphaTokens()
    ensures Concat(FunctionalTokens("rgba", ["", "", "", "", "", "", "", "", ""], Channels("0", "0", "0", Some("."))))
         == "rgba(0,0,0,.)"
  {
    var ps := FunctionalTokens("rgba", ["", "", "", "", "", "", "", "", ""], Channels("0", "0", "0", Some(".")));
    assert ps == ["rgba", "", "(", "", "0", "", ",", "", "0", "", ",", "", "0", "", ",", "", ".", "", ")"];
    NaNAlphaJoin(ps);
  }

  /** Joining the tokens of `rgba(0,0,0,.)`, known one by one; the token
      list is a parameter so that no slice of a sequence display is taken. */
  lemma NaNAlphaJoin(ps: seq<string>)
    requires |ps| == 19 && ps[0] == "rgba" && ps[2] == "(" && ps[18] == ")"
    requires ps[4] == "0" && ps[8] == "0" && ps[12] == "0" && ps[16] == "."
    requires ps[6] == "," && ps[10] == "," && ps[14] == ","
    requires ps[1] == "" && ps[3] == "" && ps[5] == "" && ps[7] == "" && ps[9] == ""
    requires ps[11] == "" && ps[13] == "" && ps[15] == "" && ps[17] == ""
    ensures Concat(ps) == "rgba(0,0,0,.)"
  {
    assert ps[..0] == [];
    var t0: string := [];
    JoinFour(ps, 0, t0);
    var t4 := t0 + ps[0] + ps[1] + ps[2] + ps[3];
    JoinFour(ps, 4, t4);
    var t8 := t4 + ps[4] + ps[5] + ps[6] + ps[7];
    JoinFour(ps, 8, t8);
    var t12 := t8 + ps[8] + ps[9] + ps[10] + ps[11];
    JoinFour(ps, 12, t12);
    var t16 := t12 + ps[12] + ps[13] + ps[14] + ps[15];
    ConcatStep(ps, 16);
    ConcatStep(ps, 17);
    ConcatStep(ps, 18);
    assert ps[..19] == ps;
    assert Concat(ps) == t16 + ps[16] + ps[17] + ps[18];
  }

  /** `rgba(0,0,0,.)` read as a match of the `rgba` pattern. */
  lemma NaNAlphaMatch()
    ensures var text := "rgba(0,0,0,.)";
      MatchAt(RgbaPattern, text, 0) == Some(RgbHit(|text|, Channels("0", "0", "0", Some("."))))
  {
    var ch := Channels("0", "0", "0", Some("."));
    var sp := ["", "", "", "", "", "", "", "", ""];
    assert SpellsKeyword("rgba", Keyword(true));
    FunctionalTextMatches("rgba", sp, ch, true);
    NaNAlphaTokens();
  }

  /** The source reports `rgba(0,0,0,.)` as a colour; the corrected
      reading does not. */
  lemma NaNAlphaReported()
    ensures var text := "rgba(0,0,0,.)";
      && ColorMatch(text, 0, |text|) in FindAllColors(text, AsWritten)
      && ColorMatch(text, 0, |text|) !in FindAllColors(text, Corrected)
  {
    var text := "rgba(0,0,0,.)";
    NaNAlphaAtStart();
    assert text[0..|text|] == text;
    AsWrittenAcceptsMatch(text, ColorMatch(text, 0, |text|));
    NaNAlphaNotCorrected();
    NotReported(text, ColorMatch(text, 0, |text|), Corrected);
  }

  /** The `rgba` hit at the start of `rgba(0,0,0,.)` is a NaN-alpha hit. */
  lemma NaNAlphaAtStart()
    ensures NaNAlphaAt("rgba(0,0,0,.)", 0, |"rgba(0,0,0,.)"|)
  {
    NaNAlphaMatch();
    assert ParseFloatPrefix(".") == None;
  }

  /** No pattern finds a corrected colour across `rgba(0,0,0,.)`. */
  lemma NaNAlphaNotCorrected()
    ensures !IsColorAt("rgba(0,0,0,.)", 0, |"rgba(0,0,0,.)"|, Corrected)
  {
    var text := "rgba(0,0,0,.)";
    NaNAlphaMatch();
    assert ParseFloatPrefix(".") == None;
    RgbNotAtRgba(text, 0);
    assert HexMatchAt(text, 0) == None;
  }

  /** A match that is not a colour under a check is not reported under it. */
  lemma NotReported(text: string, m: ColorMatch, guard: Guard)
    requires !IsColorAt(text, m.startIndex, m.length, guard)
    ensures m !in FindAllColors(text, guard)
  {
    FindAllColorsAllSound(text, guard);
  }

  /** An empty text holds no colour. */
  lemma NothingInEmptyText(guard: Guard)
    ensures FindAllColors("", guard) == []
  {
    forall p: Pattern ensures KeptOf(p, "", guard) == [] {
    }
    assert |multiset(FindAllColors("", guard))| == 0;
  }

  /** Conversely, every parsing match of every pattern is reported. */
  lemma FindAllColorsComplete(text: string, p: Pattern, i: nat, len: nat, guard: Guard)
    requires FoundAt(p, text, i, len, guard)
    ensures i + len <= |text| && ColorMatch(text[i..i + len], i, len) in FindAllColors(text, guard)
  {
    KeptOfComplete(p, text, i, len, guard);
    var m := ColorMatch(text[i..i + len], i, len);
    assert m in AllKept(text, guard);
    assert m in multiset(FindAllColors(text, guard));
  }

  /* ---------------- no two reported matches overlap ---------------- */

  /** A colour match starts at a `#`, `r` or `R` and holds none inside. */
  lemma ColorAtStarters(text: string, i: nat, len: nat, guard: Guard)
    requires IsColorAt(text, i, len, guard)
    ensures IsStarter(text[i]) && forall j :: i < j < i + len ==> !IsStarter(text[j])
  {
  }

  /** Two colour matches at one position are the same match. */
  lemma OneColorAt(text: string, i: nat, len: nat, len': nat, guard: Guard)
    requires IsColorAt(text, i, len, guard) && IsColorAt(text, i, len', guard)
    ensures len == len'
  {
    var p := if FoundAt(HexPattern, text, i, len, guard) then HexPattern
             else if FoundAt(RgbPattern, text, i, len, guard) then RgbPattern else RgbaPattern;
    var q := if FoundAt(HexPattern, text, i, len', guard) then HexPattern
             else if FoundAt(RgbPattern, text, i, len', guard) then RgbPattern else RgbaPattern;
    OnePatternAt(p, q, text, i);
  }

  /** Matches whose starts strictly increase hold each match at most once. */
  lemma {:induction false} IncreasingOnce(ms: seq<ColorMatch>, x: ColorMatch)
    requires forall j, k :: 0 <= j < k < |ms| ==> ms[j].startIndex < ms[k].startIndex
    ensures multiset(ms)[x] <= 1
  {
    if ms != [] {
      var tail := ms[1..];
      assert ms == [ms[0]] + tail;
      assert forall k :: 1 <= k < |ms| ==> ms[k] == tail[k - 1];
      IncreasingOnce(tail, x);
      if x == ms[0] {
        assert x !in tail;
      }
    }
  }

  /** The kept hits of one scan hold each match at most once. */
  lemma KeptOfOnce(p: Pattern, text: string, x: ColorMatch, guard: Guard)
    ensures multiset(KeptOf(p, text, guard))[x] <= 1
  {
    var ms := KeptOf(p, text, guard);
    KeptApart(text, Scan(p, text), guard);
    forall j, k | 0 <= j < k < |ms| ensures ms[j].startIndex < ms[k].startIndex {
      KeptOfSound(p, text, ms[j], guard);
    }
    IncreasingOnce(ms, x);
  }

  /** The three scans never keep the same match: each is a match of its
      own pattern, and no two patterns match at one position. */
  lemma AllKeptOnce(text: string, x: ColorMatch, guard: Guard)
    ensures multiset(AllKept(text, guard))[x] <= 1
  {
    var hex, rgb, rgba := KeptOf(HexPattern, text, guard), KeptOf(RgbPattern, text, guard), KeptOf(RgbaPattern, text, guard);
    assert multiset(AllKept(text, guard)) == multiset(hex) + multiset(rgb) + multiset(rgba);
    KeptOfOnce(HexPattern, text, x, guard);
    KeptOfOnce(RgbPattern, text, x, guard);
    KeptOfOnce(RgbaPattern, text, x, guard);
    if x in hex && x in rgb {
      KeptInTwo(HexPattern, RgbPattern, text, x, guard);
      assert false;
    }
    if x in hex && x in rgba {
      KeptInTwo(HexPattern, RgbaPattern, text, x, guard);
      assert false;
    }
    if x in rgb && x in rgba {
      KeptInTwo(RgbPattern, RgbaPattern, text, x, guard);
      assert false;
    }
  }

  /** A match kept by the scans of two patterns is kept by one. */
  lemma KeptInTwo(p: Pattern, q: Pattern, text: string, x: ColorMatch, guard: Guard)
    requires x in KeptOf(p, text, guard) && x in KeptOf(q, text, guard)
    ensures p == q
  {
    KeptOfSound(p, text, x, guard);
    KeptOfSound(q, text, x, guard);
    OnePatternAt(p, q, text, x.startIndex);
  }

  /** A value at two positions of a sequence counts twice. */
  lemma TwoPositions(ms: seq<ColorMatch>, j: nat, k: nat)
    requires j < k < |ms| && ms[j] == ms[k]
    ensures multiset(ms)[ms[j]] >= 2
  {
    assert ms == ms[..k] + ms[k..];
    assert ms[j] in ms[..k];
    assert ms[k] == ms[k..][0];
  }

  /** The sorted result never holds one match at two positions. */
  lemma ReportedOnce(text: string, j: nat, k: nat, guard: Guard)
    requires j < k < |FindAllColors(text, guard)|
    ensures var ms := FindAllColors(text, guard); ms[j] != ms[k]
  {
    var ms := FindAllColors(text, guard);
    if ms[j] == ms[k] {
      TwoPositions(ms, j, k);
      AllKeptOnce(text, ms[j], guard);
      assert false;
    }
  }

  /** Colour literals starting at two different positions do not overlap. */
  lemma ColorsApart(text: string, i: nat, len: nat, i': nat, len': nat, guard: Guard)
    requires IsColorAt(text, i, len, guard) && IsColorAt(text, i', len', guard) && i < i'
    ensures i + len <= i'
  {
    ColorAtStarters(text, i, len, guard);
    ColorAtStarters(text, i', len', guard);
  }

  /** Colour literals at one position have one length; at two positions
      the first ends before the second starts. */
  lemma ColorsSameOrApart(text: string, i: nat, len: nat, i': nat, len': nat, guard: Guard)
    requires IsColorAt(text, i, len, guard) && IsColorAt(text, i', len', guard) && i <= i'
    ensures if i == i' then len == len' else i + len <= i'
  {
    if i == i' {
      OneColorAt(text, i, len, len', guard);
    } else {
      ColorsApart(text, i, len, i', len', guard);
    }
  }

  /** Two reported matches, the first starting no later than the second,
      are either the same match or lie apart. */
  lemma SameOrApart(text: string, x: ColorMatch, y: ColorMatch, guard: Guard)
    requires x in FindAllColors(text, guard) && y in FindAllColors(text, guard)
    requires x.startIndex <= y.startIndex
    ensures x == y || x.startIndex + x.length <= y.startIndex
  {
    FindAllColorsSound(text, x, guard);
    FindAllColorsSound(text, y, guard);
    ColorsSameOrApart(text, x.startIndex, x.length, y.startIndex, y.length, guard);
  }

  /** The `j`-th reported match ends before the `k`-th starts. */
  lemma ReportedApart(text: string, j: nat, k: nat, guard: Guard)
    requires j < k < |FindAllColors(text, guard)|
    ensures var ms := FindAllColors(text, guard); ms[j].startIndex + ms[j].length <= ms[k].startIndex
  {
    var ms := FindAllColors(text, guard);
    SameOrApart(text, ms[j], ms[k], guard);
    if ms[j] == ms[k] {
      ReportedOnce(text, j, k, guard);
    }
  }

  /** No two reported matches overlap, and none is reported twice: the
      sorted result lies apart. */
  lemma FindAllColorsApart(text: string, guard: Guard)
    ensures MatchesApart(FindAllColors(text, guard))
  {
    var ms := FindAllColors(text, guard);
    forall j, k | 0 <= j < k < |ms| ensures ms[j].startIndex + ms[j].length <= ms[k].startIndex {
      ReportedApart(text, j, k, guard);
    }
  }
}

=== FILE: update.dfy ===
/** `updateDecorations`: group the matches of one pass by literal, hand each
    group to the decoration type of its literal, skip literals whose
    decoration type cannot be created, and give every other cached literal
    an empty range list. `setDecorations` is modelled as the map from
    literal to the ranges it receives in this pass. */
module EditorUpdate {
  import opened Wrappers
  import opened Chars
  import opened Color
  import opened Patterns
  import opened Scanner
  import opened DecorationCache

  /** A decorated range, as offsets into the text. */
  datatype Range = Range(start: nat, end: nat)

  function RangeOf(m: ColorMatch): (r: Range)
    ensures r.start == m.startIndex && r.end - r.start == m.length
  {
    Range(m.startIndex, m.startIndex + m.length)
  }

  /** The literals of a list of matches. */
  function Literals(ms: seq<ColorMatch>): set<string> {
    set m | m in ms :: m.color
  }

  /** Reference definition: the ranges of the matches whose literal is
      `lit`, in the order of the matches. */
  function RangesFor(ms: seq<ColorMatch>, lit: string): seq<Range> {
    if ms == [] then []
    else
      var init := RangesFor(ms[..|ms| - 1], lit);
      if ms[|ms| - 1].color == lit then init + [RangeOf(ms[|ms| - 1])] else init
  }

  /* ---------------- grouping ---------------- */

  /** `decorationsByColor`: a `Map`, which remembers the order in which its
      keys were first set. */
  datatype Groups = Groups(order: seq<string>, ranges: map<string, seq<Range>>)

  /** The keys in `order` are exactly the keys of `ranges`, each once. */
  predicate WellOrdered(g: Groups) {
    && (forall lit :: lit in g.ranges ==> lit in g.order)
    && (forall k :: 0 <= k < |g.order| ==> g.order[k] in g.ranges)
    && (forall j, k :: 0 <= j < k < |g.order| ==> g.order[j] != g.order[k])
  }

  /** One step of the `forEach`: open the literal's list if it is new, then
      push the match's range. */
  function AddMatch(g: Groups, m: ColorMatch): (g': Groups)
    requires WellOrdered(g)
    ensures WellOrdered(g')
    ensures g'.ranges.Keys == g.ranges.Keys + {m.color}
    ensures g'.ranges[m.color] == (if m.color in g.ranges then g.ranges[m.color] else []) + [RangeOf(m)]
    ensures forall lit :: lit in g.ranges && lit != m.color ==> g'.ranges[lit] == g.ranges[lit]
  {
    if m.color in g.ranges then
      Groups(g.order, g.ranges[m.color := g.ranges[m.color] + [RangeOf(m)]])
    else
      Groups(g.order + [m.color], g.ranges[m.color := [RangeOf(m)]])
  }

  /** The literals of a non-empty list: those of its prefix and its last. */
  lemma LiteralsStep(ms: seq<ColorMatch>)
    requires ms != []
    ensures Literals(ms) == Literals(ms[..|ms| - 1]) + {ms[|ms| - 1].color}
  {
    assert ms == ms[..|ms| - 1] + [ms[|ms| - 1]];
  }

  /** A literal no match carries has no ranges. */
  lemma {:induction false} RangesForAbsent(ms: seq<ColorMatch>, lit: string)
    requires lit !in Literals(ms)
    ensures RangesFor(ms, lit) == []
  {
    if ms != [] {
      LiteralsStep(ms);
      RangesForAbsent(ms[..|ms| - 1], lit);
    }
  }

  /** A literal some match carries has at least one range. */
  lemma {:induction false} RangesForPresent(ms: seq<ColorMatch>, lit: string)
    requires lit in Literals(ms)
    ensures |RangesFor(ms, lit)| > 0
  {
    LiteralsStep(ms);
    if ms[|ms| - 1].color != lit {
      RangesForPresent(ms[..|ms| - 1], lit);
    }
  }

  /** The `forEach` over the matches. */
  function GroupByColor(ms: seq<ColorMatch>): (g: Groups)
    ensures WellOrdered(g)
    ensures g.ranges.Keys == Literals(ms)
    ensures forall lit :: lit in g.ranges ==> g.ranges[lit] == RangesFor(ms, lit)
  {
    if ms == [] then Groups([], map[])
    else
      var init := ms[..|ms| - 1];
      var m := ms[|ms| - 1];
      var g0 := GroupByColor(init);
      LiteralsStep(ms);
      if m.color !in g0.ranges then RangesForAbsent(init, m.color); AddMatch(g0, m)
      else AddMatch(g0, m)
  }

  /** Reference definition: the index of the first match whose literal is
      `lit`. */
  function FirstIndex(ms: seq<ColorMatch>, lit: string): (k: nat)
    requires lit in Literals(ms)
    ensures k < |ms| && ms[k].color == lit
    ensures forall j :: 0 <= j < k ==> ms[j].color != lit
  {
    assert ms == [ms[0]] + ms[1..];
    if ms[0].color == lit then 0
    else
      assert lit in Literals(ms[1..]);
      1 + FirstIndex(ms[1..], lit)
  }

  /** Adding a match at the end moves no literal's first occurrence. */
  lemma FirstIndexPrefix(ms: seq<ColorMatch>, lit: string)
    requires ms != [] && lit in Literals(ms[..|ms| - 1])
    ensures lit in Literals(ms) && FirstIndex(ms, lit) == FirstIndex(ms[..|ms| - 1], lit)
  {
    LiteralsStep(ms);
    var init := ms[..|ms| - 1];
    var i := FirstIndex(init, lit);
    var i' := FirstIndex(ms, lit);
    assert ms[i] == init[i];
    assert i' <= i;
    assert init[i'] == ms[i'];
  }

  /** A literal that first appears in the last match first appears there. */
  lemma FirstIndexLast(ms: seq<ColorMatch>)
    requires ms != [] && ms[|ms| - 1].color !in Literals(ms[..|ms| - 1])
    ensures ms[|ms| - 1].color in Literals(ms) && FirstIndex(ms, ms[|ms| - 1].color) == |ms| - 1
  {
    LiteralsStep(ms);
    var init := ms[..|ms| - 1];
    forall j | 0 <= j < |ms| - 1
      ensures ms[j].color != ms[|ms| - 1].color
    {
      assert ms[j] == init[j];
      assert init[j] in init;
    }
  }

  /** The key order after one more match: unchanged, or the new literal
      appended. */
  lemma GroupOrderStep(ms: seq<ColorMatch>)
    requires ms != []
    ensures var init := ms[..|ms| - 1];
      var o0 := GroupByColor(init).order;
      && (forall i :: 0 <= i < |o0| ==> o0[i] in Literals(init))
      && GroupByColor(ms).order
         == (if ms[|ms| - 1].color in Literals(init) then o0 else o0 + [ms[|ms| - 1].color])
  {
    var init := ms[..|ms| - 1];
    var g0 := GroupByColor(init);
    assert GroupByColor(ms) == AddMatch(g0, ms[|ms| - 1]);
  }

  /** One pair of keys after one step of the grouping; kept apart from
      `GroupOrderFirstSeen` so that `GroupByColor` is not unfolded there. */
  lemma OrderStepPair(ms: seq<ColorMatch>, o0: seq<string>, o: seq<string>, j: nat, k: nat)
    requires ms != [] && j < k < |o|
    requires forall i :: 0 <= i < |o0| ==> o0[i] in Literals(ms[..|ms| - 1])
    requires o == (if ms[|ms| - 1].color in Literals(ms[..|ms| - 1]) then o0 else o0 + [ms[|ms| - 1].color])
    requires k < |o0| ==> FirstIndex(ms[..|ms| - 1], o0[j]) < FirstIndex(ms[..|ms| - 1], o0[k])
    ensures o[j] in Literals(ms) && o[k] in Literals(ms)
    ensures FirstIndex(ms, o[j]) < FirstIndex(ms, o[k])
  {
    assert o[j] == o0[j];
    FirstIndexPrefix(ms, o[j]);
    if k < |o0| {
      assert o[k] == o0[k];
      FirstIndexPrefix(ms, o[k]);
    } else {
      FirstIndexLast(ms);
    }
  }

  /** `decorationsByColor` iterates its keys in the order their literals
      first occur among the matches. */
  lemma {:induction false} GroupOrderFirstSeen(ms: seq<ColorMatch>)
    ensures var o := GroupByColor(ms).order;
      forall j, k :: 0 <= j < k < |o| ==> FirstIndex(ms, o[j]) < FirstIndex(ms, o[k])
  {
    if ms != [] {
      var init := ms[..|ms| - 1];
      var o0 := GroupByColor(init).order;
      var o := GroupByColor(ms).order;
      GroupOrderFirstSeen(init);
      GroupOrderStep(ms);
      forall j, k | 0 <= j < k < |o|
        ensures FirstIndex(ms, o[j]) < FirstIndex(ms, o[k])
      {
        OrderStepPair(ms, o0, o, j, k);
      }
    }
  }

  predicate Ascending(rs: seq<Range>) {
    forall j, k :: 0 <= j < k < |rs| ==> rs[j].start <= rs[k].start
  }

  /** No range of `lit` starts after a bound that every match respects. */
  lemma {:induction false} RangesForBounded(ms: seq<ColorMatch>, lit: string, bound: nat)
    requires forall k :: 0 <= k < |ms| ==> ms[k].startIndex <= bound
    ensures forall r :: r in RangesFor(ms, lit) ==> r.start <= bound
  {
    if ms != [] {
      RangesForBounded(ms[..|ms| - 1], lit, bound);
    }
  }

  /** Matches sorted by offset give each literal its ranges in ascending
      order. */
  lemma {:induction false} RangesForAscending(ms: seq<ColorMatch>, lit: string)
    requires SortedByStart(ms)
    ensures Ascending(RangesFor(ms, lit))
  {
    if ms != [] {
      var init := ms[..|ms| - 1];
      var last := ms[|ms| - 1];
      RangesForAscending(init, lit);
      if last.color == lit {
        RangesForBounded(init, lit, last.startIndex);
        var rs := RangesFor(init, lit);
        var rs' := rs + [RangeOf(last)];
        forall j, k | 0 <= j < k < |rs'| ensures rs'[j].start <= rs'[k].start {
          if k == |rs| {
            assert rs'[j] in rs;
          }
        }
      }
    }
  }

  /* ---------------- applying the groups ---------------- */

  /** The cache after the pass and the ranges each literal's decoration
      type was given. */
  datatype Pass = Pass(cache: Cache, painted: map<string, seq<Range>>)

  /** The `forEach` over the groups: look up or create the literal's
      decoration type and give it the group's ranges; a literal whose
      creation throws is skipped and the loop goes on. */
  function ApplyGroups(c: Cache, order: seq<string>, ranges: map<string, seq<Range>>, fmt: real -> string): (p: Pass)
    requires forall k :: 0 <= k < |order| ==> order[k] in ranges
    ensures forall lit :: lit in p.painted ==> lit in ranges && p.painted[lit] == ranges[lit]
    ensures Valid(c) ==> Valid(p.cache)
    decreases |order|
  {
    if order == [] then Pass(c, map[])
    else
      var lit := order[0];
      var o := GetOrCreate(c, lit, fmt);
      var rest := ApplyGroups(o.cache, order[1..], ranges, fmt);
      if o.result.Success? then Pass(rest.cache, rest.painted[lit := ranges[lit]]) else rest
  }

  /** What the loop does to one literal: it is painted exactly when it is a
      group key whose decoration type is cached or can be created; it is
      cached afterwards exactly when it was before or is such a key; and a
      cached handle is never replaced. */
  lemma {:induction false} ApplyGroupsAt(c: Cache, order: seq<string>, ranges: map<string, seq<Range>>, fmt: real -> string, lit: string)
    requires forall k :: 0 <= k < |order| ==> order[k] in ranges
    ensures var p := ApplyGroups(c, order, ranges, fmt);
      && (lit in p.painted <==> lit in order && (lit in c.entries || Accepted(lit, fmt)))
      && (lit in p.cache.entries <==> lit in c.entries || (lit in order && Accepted(lit, fmt)))
      && (lit in c.entries ==> p.cache.entries[lit] == c.entries[lit])
    decreases |order|
  {
    if order != [] {
      var o := GetOrCreate(c, order[0], fmt);
      ApplyGroupsAt(o.cache, order[1..], ranges, fmt, lit);
      assert lit in order <==> lit == order[0] || lit in order[1..];
    }
  }

  /** The cached literals not among the group keys, each with no ranges. */
  function StaleCleared(c: Cache, keys: set<string>): (cleared: map<string, seq<Range>>)
    ensures forall lit :: lit in cleared <==> lit in c.entries && lit !in keys
    ensures forall lit :: lit in cleared ==> cleared[lit] == []
  {
    map lit | lit in c.entries && lit !in keys :: []
  }

  /** The result of one pass over an editor. */
  datatype Update = Update(cache: Cache, calls: map<string, seq<Range>>)

  /** `updateDecorations` on an editor holding `text`. */
  function UpdateDecorations(c: Cache, text: string, fmt: real -> string, guard: Guard): (u: Update)
    ensures Valid(c) ==> Valid(u.cache)
  {
    var g := GroupByColor(FindAllColors(text, guard));
    var p := ApplyGroups(c, g.order, g.ranges, fmt);
    Update(p.cache, p.painted + StaleCleared(p.cache, g.ranges.Keys))
  }

  /** Every literal found in this pass gets the ranges of its matches, in
      ascending order, and so is never cleared: the scanner only reports
      literals the cache accepts. */
  lemma UpdatePaintsGroups(c: Cache, text: string, fmt: real -> string, lit: string, guard: Guard)
    requires lit in Literals(FindAllColors(text, guard))
    ensures var u := UpdateDecorations(c, text, fmt, guard);
      && lit in u.calls && u.calls[lit] == RangesFor(FindAllColors(text, guard), lit)
      && Ascending(u.calls[lit]) && |u.calls[lit]| > 0
  {
    RangesForPresent(FindAllColors(text, guard), lit);
    var g := GroupByColor(FindAllColors(text, guard));
    FoundLiteralsAccepted(text, fmt, lit, guard);
    ApplyGroupsAt(c, g.order, g.ranges, fmt, lit);
    RangesForAscending(FindAllColors(text, guard), lit);
  }

  /** Stale clearing: every cached literal absent from this pass gets an
      empty range list, and a call goes to no literal other than the found
      ones and the stale cached ones. */
  lemma UpdateClearsStale(c: Cache, text: string, fmt: real -> string, lit: string, guard: Guard)
    ensures var u := UpdateDecorations(c, text, fmt, guard);
      var found := Literals(FindAllColors(text, guard));
      && (lit in u.cache.entries && lit !in found ==> lit in c.entries && lit in u.calls && u.calls[lit] == [])
      && (lit in u.calls ==> lit in found || lit in c.entries)
  {
    var g := GroupByColor(FindAllColors(text, guard));
    ApplyGroupsAt(c, g.order, g.ranges, fmt, lit);
  }

  /** The cache after a pass: every earlier entry is kept as it was, and the
      new entries are exactly the accepted literals of this pass. */
  lemma UpdateGrowsCache(c: Cache, text: string, fmt: real -> string, lit: string, guard: Guard)
    ensures var u := UpdateDecorations(c, text, fmt, guard);
      && (lit in c.entries ==> lit in u.cache.entries && u.cache.entries[lit] == c.entries[lit])
      && (lit in u.cache.entries && lit !in c.entries <==>
            lit !in c.entries && lit in Literals(FindAllColors(text, guard)) && Accepted(lit, fmt))
  {
    var g := GroupByColor(FindAllColors(text, guard));
    ApplyGroupsAt(c, g.order, g.ranges, fmt, lit);
  }

  /** Every literal `findAllColors` reports is accepted by the cache, so
      within the pipeline the `catch` branch is never taken. */
  lemma FoundLiteralsAccepted(text: string, fmt: real -> string, lit: string, guard: Guard)
    requires lit in Literals(FindAllColors(text, guard))
    ensures Accepted(lit, fmt)
  {
    FoundLiteralShape(text, lit, guard);
    ShapeAccepted(lit, fmt);
  }

  /** What the cache checks of a literal: a leading `#` and a hex body that
      decodes, or a leading `rgb` in any case. */
  predicate CacheShape(lit: string) {
    (|lit| > 0 && lit[0] == '#' && HexToRgba(lit).Some?) || KeywordAt(lit, 0, "rgb")
  }

  lemma ShapeAccepted(lit: string, fmt: real -> string)
    requires CacheShape(lit)
    ensures Accepted(lit, fmt)
  {
    if KeywordAt(lit, 0, "rgb") {
      RgbWordAccepted(lit, fmt);
    }
  }

  /** Every reported literal has the shape the cache accepts. */
  lemma FoundLiteralShape(text: string, lit: string, guard: Guard)
    requires lit in Literals(FindAllColors(text, guard))
    ensures CacheShape(lit)
  {
    FindAllColorsAllSound(text, guard);
    MatchedLiteralShape(text, FindAllColors(text, guard), lit, guard);
  }

  /** A literal of a list of parsing colour matches has one of the cache's
      shapes. */
  lemma MatchedLiteralShape(text: string, ms: seq<ColorMatch>, lit: string, guard: Guard)
    requires AllColorMatches(text, ms, guard) && lit in Literals(ms)
    ensures CacheShape(lit)
  {
    var k := LiteralSource(ms, lit);
    assert ms[k] in ms;
    ColorAtShape(text, ms[k].startIndex, ms[k].length, guard);
  }

  /** Where a literal of a list of matches comes from. */
  lemma LiteralSource(ms: seq<ColorMatch>, lit: string) returns (k: nat)
    requires lit in Literals(ms)
    ensures k < |ms| && ms[k].color == lit
  {
    var m :| m in ms && m.color == lit;
    k :| k < |ms| && ms[k] == m;
  }

  /** The text of a parsing match of any of the three patterns has the
      shape the cache accepts. */
  lemma ColorAtShape(text: string, i: nat, len: nat, guard: Guard)
    requires IsColorAt(text, i, len, guard)
    ensures i + len <= |text| && CacheShape(text[i..i + len])
  {
    if FoundAt(HexPattern, text, i, len, guard) {
      HexLiteralShape(text, i, len, guard);
    } else {
      var withAlpha := !FoundAt(RgbPattern, text, i, len, guard);
      assert FunctionalAt(text, i, withAlpha) == MatchAt(if withAlpha then RgbaPattern else RgbPattern, text, i);
      RgbLiteralShape(text, i, len, withAlpha);
    }
  }

  lemma RgbLiteralShape(text: string, i: nat, len: nat, withAlpha: bool)
    requires i < |text| && FunctionalAt(text, i, withAlpha).Some?
    requires FunctionalAt(text, i, withAlpha).value.len == len
    ensures i + len <= |text| && CacheShape(text[i..i + len])
  {
    KeywordPrefix(text, i, len, withAlpha);
  }

  lemma HexLiteralShape(text: string, i: nat, len: nat, guard: Guard)
    requires FoundAt(HexPattern, text, i, len, guard)
    ensures i + len <= |text| && CacheShape(text[i..i + len])
  {
    var h := MatchAt(HexPattern, text, i).value;
    assert HexMatchAt(text, i).Some?;
    assert HexToRgba(Literal(text, i, h)).Some?;
  }

  /** A keyword that starts with `rgb`, matched at `i`, puts `rgb` at the
      head of any literal starting at `i` that covers it. */
  lemma KeywordPrefix(text: string, i: nat, len: nat, withAlpha: bool)
    requires KeywordAt(text, i, Keyword(withAlpha)) && |Keyword(withAlpha)| <= len && i + len <= |text|
    ensures KeywordAt(text[i..i + len], 0, "rgb")
  {
    var lit := text[i..i + len];
    var word := Keyword(withAlpha);
    forall j | 0 <= j < 3 ensures LowerAscii(lit[j]) == "rgb"[j] {
      assert lit[j] == text[i + j];
      assert LowerAscii(text[i + j]) == word[j];
    }
  }

  /** A literal whose first three letters are `rgb`, in any case, is taken
      as it is. */
  lemma RgbWordAccepted(lit: string, fmt: real -> string)
    requires KeywordAt(lit, 0, "rgb")
    ensures Accepted(lit, fmt)
  {
    assert LowerAscii(lit[0 + 0]) == "rgb"[0] == 'r';
    assert !IsHexLiteral(lit);
  }

  /** Every range of `lit` comes from a match of `lit`. */
  lemma {:induction false} RangesForSource(ms: seq<ColorMatch>, lit: string, r: Range) returns (k: nat)
    requires r in RangesFor(ms, lit)
    ensures k < |ms| && ms[k].color == lit && RangeOf(ms[k]) == r
  {
    var init := ms[..|ms| - 1];
    if r in RangesFor(init, lit) {
      k := RangesForSource(init, lit, r);
    } else {
      k := |ms| - 1;
    }
  }

  /** Every range a found literal is painted on spells that literal in the
      text. */
  lemma PaintedRangesSpellLiteral(c: Cache, text: string, fmt: real -> string, lit: string, r: Range, guard: Guard)
    requires lit in Literals(FindAllColors(text, guard))
    requires lit in UpdateDecorations(c, text, fmt, guard).calls
    requires r in UpdateDecorations(c, text, fmt, guard).calls[lit]
    ensures r.start < r.end <= |text| && text[r.start..r.end] == lit
  {
    UpdatePaintsGroups(c, text, fmt, lit, guard);
    FoundRangesSpellLiteral(text, lit, r, guard);
  }

  lemma FoundRangesSpellLiteral(text: string, lit: string, r: Range, guard: Guard)
    requires r in RangesFor(FindAllColors(text, guard), lit)
    ensures r.start < r.end <= |text| && text[r.start..r.end] == lit
  {
    FindAllColorsAllSound(text, guard);
    MatchedRangesSpell(text, FindAllColors(text, guard), lit, r, guard);
  }

  /** A range grouped under a literal, from a list of parsing colour
      matches, spells that literal. */
  lemma MatchedRangesSpell(text: string, ms: seq<ColorMatch>, lit: string, r: Range, guard: Guard)
    requires AllColorMatches(text, ms, guard) && r in RangesFor(ms, lit)
    ensures r.start < r.end <= |text| && text[r.start..r.end] == lit
  {
    var k := RangesForSource(ms, lit, r);
    assert ms[k] in ms;
  }

  /** The first pass over an editor, from the empty cache, caches exactly
      the literals it finds. */
  lemma FirstPassCachesFound(text: string, fmt: real -> string, guard: Guard)
    ensures var u := UpdateDecorations(Empty, text, fmt, guard);
      Valid(u.cache) && u.cache.entries.Keys == Literals(FindAllColors(text, guard))
  {
    var u := UpdateDecorations(Empty, text, fmt, guard);
    forall lit ensures lit in u.cache.entries <==> lit in Literals(FindAllColors(text, guard)) {
      UpdateGrowsCache(Empty, text, fmt, lit, guard);
      if lit in Literals(FindAllColors(text, guard)) {
        FoundLiteralsAccepted(text, fmt, lit, guard);
      }
    }
  }

  /** On an empty text every cached literal is cleared and nothing is
      created. */
  lemma EmptyTextClearsAll(c: Cache, fmt: real -> string, guard: Guard)
    ensures var u := UpdateDecorations(c, "", fmt, guard);
      u.cache == c && u.calls == map lit | lit in c.entries :: []
  {
    NothingInEmptyText(guard);
    var g := GroupByColor([]);
    assert g.order == [] && g.ranges == map[];
    ApplyNothing(c, g.order, g.ranges, fmt);
    ClearAll(c, g.ranges.Keys);
  }

  /** No groups: no decoration type is applied and the cache is untouched.
      Kept apart from `EmptyTextClearsAll` so that `ApplyGroups` is unfolded
      without the whole update pass in the same proof context. */
  lemma ApplyNothing(c: Cache, order: seq<string>, ranges: map<string, seq<Range>>, fmt: real -> string)
    requires order == []
    ensures ApplyGroups(c, order, ranges, fmt) == Pass(c, map[])
  {
  }

  /** With no live literals, every cached literal is cleared; apart from
      `EmptyTextClearsAll` for the same reason as `ApplyNothing`. */
  lemma ClearAll(c: Cache, keys: set<string>)
    requires keys == {}
    ensures map[] + StaleCleared(c, keys) == map lit | lit in c.entries :: []
  {
  }
}

=== FILE: vectors.dfy ===
/** Literals of the repository's colour sample file, and an upper-case one,
    checked against the decoders. */
module ColorVectors {
  import opened Wrappers
  import opened Chars
  import opened Color
  import opened Patterns
  import opened Scanner

  lemma SixDigitVector()
    ensures HexToRgba("#aabbcc") == Some(Rgba(170, 187, 204, 1.0))
  {
  }

  /** `#abc` is `#aabbcc`. */
  lemma ThreeDigitVector()
    ensures HexToRgba("#abc") == Some(Rgba(170, 187, 204, 1.0))
  {
  }

  /** `#abcd` is `#aabbccdd`. */
  lemma FourDigitVector()
    ensures HexToRgba("#abcd") == Some(Rgba(170, 187, 204, 221.0 / 255.0))
  {
  }

  /** `#00a86bcc` carries alpha 0xcc / 255 = 204 / 255. */
  lemma AlphaHexVector()
    ensures HexToRgba("#00a86bcc") == Some(Rgba(0, 168, 107, 204.0 / 255.0))
  {
  }

  /** Upper-case digits: `AB`, `CD`, `EF` are 171, 205, 239. */
  lemma UpperCaseVector()
    ensures HexToRgba("#ABCDEF") == Some(Rgba(171, 205, 239, 1.0))
  {
  }

  /** Five and seven digits are not colours. */
  lemma BadLengthVectors()
    ensures HexToRgba("#12345") == None
    ensures HexToRgba("#1234567") == None
  {
  }

  /** The channels of `rgba(149, 103, 189, 0.5)` read back unchanged. */
  lemma RgbaVector()
    ensures ParseRgbRgba(Channels("149", "103", "189", Some("0.5"))) == Some(Rgba(149, 103, 189, 0.5))
  {
    assert "149"[..2] == "14" && "14"[..1] == "1";
    assert "103"[..2] == "10" && "10"[..1] == "1";
    assert "189"[..2] == "18" && "18"[..1] == "1";
    assert DecimalValue("149") == 149 && DecimalValue("103") == 103 && DecimalValue("189") == 189;
    assert RunEnd("0.5", 0, Digit) == 1 && RunEnd("0.5", 2, Digit) == 3;
    assert "0.5"[..1] == "0" && "0.5"[2..3] == "5";
    assert ParseFloatPrefix("0.5") == Some(0.5);
  }

  /** The channels of `rgb(1, 2, 3)` read back unchanged, with alpha 1. */
  lemma OneTwoThreeVector()
    ensures ParseRgbRgba(Channels("1", "2", "3", None)) == Some(Rgba(1, 2, 3, 1.0))
  {
    assert DecimalValue("1") == 1 && DecimalValue("2") == 2 && DecimalValue("3") == 3;
  }

  /** `rgb(256, 0, 0)` and an alpha above one are out of range. */
  lemma OutOfRangeVectors()
    ensures ParseRgbRgba(Channels("256", "0", "0", None)) == None
    ensures ParseRgbRgba(Channels("0", "0", "0", Some("1.5"))) == None
  {
    assert "256"[..2] == "25" && "25"[..1] == "2";
    assert DecimalValue("256") == 256;
    assert RunEnd("1.5", 0, Digit) == 1 && RunEnd("1.5", 2, Digit) == 3;
    assert "1.5"[..1] == "1" && "1.5"[2..3] == "5";
    assert ParseFloatPrefix("1.5") == Some(1.5);
  }

  /** `rgb(1, 2, 3)` is found where it stands in any text, with the text
      before and after it left out of the match. */
  lemma RgbInTextVector(before: string, after: string, guard: Guard)
    ensures ColorMatch("rgb(1, 2, 3)", |before|, 12) in FindAllColors(before + "rgb(1, 2, 3)" + after, guard)
  {
    RgbInTextMatches(before, after);
    OneTwoThreeVector();
    FindAllColorsComplete(before + "rgb(1, 2, 3)" + after, RgbPattern, |before|, 12, guard);
  }

  /** The `rgb` pattern, at the `r` of `rgb(1, 2, 3)` in any text, reads
      exactly the literal. */
  lemma RgbInTextMatches(before: string, after: string)
    ensures |before| < |before + "rgb(1, 2, 3)" + after|
    ensures MatchAt(RgbPattern, before + "rgb(1, 2, 3)" + after, |before|) == Some(RgbHit(12, Channels("1", "2", "3", None)))
  {
    var t := "rgb(1, 2, 3)";
    assert t[4..5] == "1" && t[7..8] == "2" && t[10..11] == "3";
    RgbLayoutMatches(t, "1", "2", "3");
    PlacedInConcat(before, t, after);
    FunctionalAtIn(before + t + after, t, |before|, false);
  }

  /** The same inside a CSS declaration. */
  lemma RgbInDeclarationVector(guard: Guard)
    ensures ColorMatch("rgb(1, 2, 3)", 7, 12) in FindAllColors("color: " + "rgb(1, 2, 3)" + ";", guard)
  {
    RgbInTextVector("color: ", ";", guard);
  }
}

=== FILE: wrappers.dfy ===
/** Failure-compatible wrappers: `Option` stands for the source's `null`
    returns (and for JavaScript's NaN where a number may fail to parse),
    `Result` for a call that may throw. */
module Wrappers {

  datatype Option<+T> = None | Some(value: T) {

    predicate IsFailure() {
      None?
    }

    function PropagateFailure<U>(): Option<U>
      requires None?
    {
      None
    }

    function Extract(): T
      requires Some?
    {
      value
    }
  }

  datatype Result<+R, +E> = Success(value: R) | Failure(error: E) {

    predicate IsFailure() {
      Failure?
    }

    function PropagateFailure<U>(): Result<U, E>
      requires Failure?
    {
      Failure(error)
    }

    function Extract(): R
      requires Success?
    {
      value
    }
  }
}
